=== FILE: README.md ===
# Timeline report: a Dafny model

This project models the data-shaping core of the timeline report script
`toolkit/helper_scripts/analysis/visualize_summary.py`. The script reads a folder of
per-version analysis snapshots:

- `<version>.json` summaries;
- `<version>.meta` commit notes;
- a `release_versions.info` list.

It then writes a six-page PDF. The pages show:

- the core and load-module size charts;
- the core-reference trend of every core file, where files whose latest count is 3
  or less are listed instead of drawn;
- the pylint score chart;
- the dependency-warning chart;
- a table of the last 60 commits, each message cut to one line of at most 105
  characters.

The model keeps everything the pages show and leaves out the drawing itself.

Modules, in the order the data flows through them:

- `Results`: `Option` and `Result`.
- `Seqs`: generic sequence helpers, with Python's negative indexing and slicing.
- `Text`: the CPython `str` operations the script calls. These are `strip`,
  `split()`, `split(": ", 1)`, `"\n".join`, `in`, `replace(pat, "")`, `endswith`
  and integer formatting. `SplitOn` (split at every occurrence of one character)
  and `IndexOf` (first occurrence of a pattern) are model-side helpers: the first
  reads a joined text back line by line, the second underlies `in` and
  `split(": ", 1)`.
- `Order`: Python's string order and `sorted` of a set of strings.
- `MessageFormat`: `truncate_message` (lines 11-24).
- `Snapshots`: the three loaders (lines 26-62). The folder is a map from file name
  to content: names in a directory are unique, and `os.listdir` plus `sorted` is
  `Order.SortSet` of the map's keys. Each entry carries the text `f.read()` returns
  and the outcome of `json.load` on the same file.
- `Series`: the aligned series of `visualize_timeline` (lines 66-79).
- `Exclusion`: the draw-or-list policy of the core-references page (lines 180-210).
- `Report`:
  - release highlighting;
  - the commit table (lines 258-279);
  - `visualize_timeline` as `Render`, whose one modelled failure is the empty
    history (a summary missing a key is outside the model, see "Left out");
  - `main` as `Run`.

Notes on the script's behaviour:

- **Release tags.** The script removes every `v` from a release tag (line 59), not
  one leading prefix character. The snapshot's own version id keeps its `v`
  (line 35). So with snapshots `v1.0.json` and `v1.1.json` and a release file
  `v1.0 v1.1`, nothing is highlighted: `Report.VersionWithVNeverHighlighted` proves
  that a version containing `v` never matches a release.
- **Message wrapping.** `textwrap.wrap` breaks words longer than the width, and
  the head of such a word first fills the current line. A commit message
  `"Merge <150-character URL>"` therefore shows as `"Merge "`, the URL's first 96
  characters and `...` (`MessageFormat.LongWordCellMarked` shows the same rule at
  width 5). The ellipsis is added only when the kept line is longer than
  `width - 3` (lines 19-21), so a message can lose its second line without any
  mark (`MessageFormat.ShortFirstLineCutSilently`).
- **Commit window.** The window is `MAX_COMMIT_HISTORY = 60` (lines 9 and 260). The
  in-line comment at line 260 mentions 40.
- **Empty history.** With no snapshot at all, `visualize_timeline` stops with
  IndexError at `core_files[-1]` (line 104). `Report.Render` returns
  `Failure(EmptyHistory)`.

## Model

Every path below is `toolkit/helper_scripts/analysis/visualize_summary.py`.

| member | source | states |
|---|---|---|
| MessageFormat.Wrap | toolkit/helper_scripts/analysis/visualize_summary.py:16 | fails exactly for a width below 1; every line is non-empty, at most `width` long and free of line breaks; apart from whitespace the lines hold exactly the message's characters, in order. A word longer than the width first fills the current line, as in textwrap |
| MessageFormat.Step | toolkit/helper_scripts/analysis/visualize_summary.py:16 | one filling step emits only lines of at most `width` characters, keeps the words packable and always makes progress, so the filling ends |
| MessageFormat.StepKeepsText | toolkit/helper_scripts/analysis/visualize_summary.py:16 | one filling step moves characters between the emitted lines, the current line and the remaining words without losing or reordering any but whitespace |
| MessageFormat.PackKeepsText | toolkit/helper_scripts/analysis/visualize_summary.py:16 | filling lines step by step, words that fit joined by one space and long words cut at the line end, loses nothing but whitespace |
| MessageFormat.TruncateLines | toolkit/helper_scripts/analysis/visualize_summary.py:17-24 | lines within the cap come back unchanged; a positive cap keeps the first `max_lines - 1` lines verbatim, then the next line, cut to `line[:width - 3]` plus `...` only when it is longer than `width - 3` (below width 3 the slice counts from the end, so the ellipsis is always added); IndexError exactly for a negative cap that reaches past the front; a cap of 0 or below keeps `len(lines) + max_lines` lines, the last of them cut by the same rule |
| Seqs.At | toolkit/helper_scripts/analysis/visualize_summary.py:19 | `s[k]` is defined exactly for `-len(s) <= k < len(s)`, and a negative `k` counts from the end |
| Seqs.SliceTo | toolkit/helper_scripts/analysis/visualize_summary.py:21-22 | `s[:k]` is a prefix of `s` of length `min(k, len(s))`, or `max(0, len(s) + k)` for a negative `k` |
| MessageFormat.TruncateMessage | toolkit/helper_scripts/analysis/visualize_summary.py:11-24 | fails for a width below 1 and succeeds for every message when the width and cap are positive |
| MessageFormat.TruncateLinesFit | toolkit/helper_scripts/analysis/visualize_summary.py:17-22 | with `width >= 3`, a positive cap and lines of at most `width` characters without line breaks, as textwrap gives, the result has at most `max_lines` lines, each at most `width` long and without a line break |
| MessageFormat.TruncateMessageFits | toolkit/helper_scripts/analysis/visualize_summary.py:11-24 | the returned cell, split at line breaks, has at most `max_lines` lines of at most `width` characters |
| MessageFormat.TruncateMessageShort | toolkit/helper_scripts/analysis/visualize_summary.py:23-24 | a message that wraps to at most `max_lines` lines is its wrapped lines joined by line breaks |
| MessageFormat.ZeroCapKeepsLineCount | toolkit/helper_scripts/analysis/visualize_summary.py:17-22 | with `max_lines = 0` and width 5, `["ab", "cdefghij"]` stays two lines but the last becomes `cd...`, because `lines[-1]` and `lines[:-1]` count from the end |
| MessageFormat.ShortFirstLineCutSilently | toolkit/helper_scripts/analysis/visualize_summary.py:19-22 | with a cap of one line and a short first line, the second line is dropped without an ellipsis |
| MessageFormat.NarrowWidthCutsFromEnd | toolkit/helper_scripts/analysis/visualize_summary.py:19-21 | with width 2 and a cap of one, `["abc", "d"]` becomes `["ab..."]`: `line[:-1]` plus the ellipsis, longer than the width |
| MessageFormat.LongWordFillsLine | toolkit/helper_scripts/analysis/visualize_summary.py:16 | at width 5, the words `ab` and `cdefghij` fill as `["ab cd", "efghi", "j"]`: the long word's head joins the current line |
| MessageFormat.LongWordWrapped | toolkit/helper_scripts/analysis/visualize_summary.py:16 | `wrap("ab cdefghij", 5)` gives `["ab cd", "efghi", "j"]` |
| MessageFormat.SpaceKeptBeforeLongWord | toolkit/helper_scripts/analysis/visualize_summary.py:16 | at width 5, `abcd` then `efghijklmn` gives `["abcd ", "efghi", "jklmn"]`: when only the space fits, it stays at the line end |
| MessageFormat.LongWordLinesCapped | toolkit/helper_scripts/analysis/visualize_summary.py:17-22 | a cap of one line on `["ab cd", "efghi", "j"]` at width 5 keeps `ab` and marks the cut: `["ab..."]` |
| MessageFormat.LongWordCellMarked | toolkit/helper_scripts/analysis/visualize_summary.py:11-24 | `truncate_message("ab cdefghij", 5, 1)` is `"ab..."` |
| Text.Strip | toolkit/helper_scripts/analysis/visualize_summary.py:47 | `strip()` gives a string that neither starts nor ends with whitespace |
| Text.StripSurroundings | toolkit/helper_scripts/analysis/visualize_summary.py:47 | the input is whitespace, then the stripped text, then whitespace |
| Text.StripUnchanged | toolkit/helper_scripts/analysis/visualize_summary.py:59 | a string without surrounding whitespace is its own strip |
| Text.Split | toolkit/helper_scripts/analysis/visualize_summary.py:58 | `split()` gives non-empty, whitespace-free tokens |
| Text.SplitKeepsText | toolkit/helper_scripts/analysis/visualize_summary.py:58 | the tokens together hold exactly the non-whitespace characters of the input |
| Text.SplitJoin | toolkit/helper_scripts/analysis/visualize_summary.py:58 | splitting space-joined tokens gives the tokens back |
| Text.SplitIgnoresStrip | toolkit/helper_scripts/analysis/visualize_summary.py:58 | `s.strip().split() == s.split()` |
| Text.SplitOnJoin | toolkit/helper_scripts/analysis/visualize_summary.py:22-24 | splitting a line-joined list of one-line strings at line breaks gives the list back |
| Text.Join | toolkit/helper_scripts/analysis/visualize_summary.py:22-24 | the empty list joins to the empty string; otherwise the result is as long as all the parts plus one separator between each two, and starts with the first part |
| Text.JoinSplitOn | toolkit/helper_scripts/analysis/visualize_summary.py:207 | joining the pieces of the model-side `SplitOn(s, c)` with `c` gives `s` back, so reading a joined text line by line loses nothing |
| Text.IndexOf | toolkit/helper_scripts/analysis/visualize_summary.py:48-49 | the first occurrence of the pattern, or none when it does not occur |
| Text.Contains | toolkit/helper_scripts/analysis/visualize_summary.py:48 | `pat in s` holds exactly when `pat` occurs in `s` at some position |
| Text.EndsWith | toolkit/helper_scripts/analysis/visualize_summary.py:30 | a string that ends with the suffix is some stem followed by the suffix |
| Text.EndsWithAppended | toolkit/helper_scripts/analysis/visualize_summary.py:30 | every stem followed by the suffix ends with it |
| Text.SplitAtFirst | toolkit/helper_scripts/analysis/visualize_summary.py:49 | splitting `a + pat + b` at its first `pat` gives `a` and `b` when `a` holds no `pat` |
| Text.RemoveAllSuffix | toolkit/helper_scripts/analysis/visualize_summary.py:35 | removing `pat` from `stem + pat` gives `stem` when the stem does not contain `pat` |
| Text.RemoveAll | toolkit/helper_scripts/analysis/visualize_summary.py:35 | the result is never longer than the input, and it is the input unchanged exactly when the pattern does not occur |
| Text.ContainsAfterFirst | toolkit/helper_scripts/analysis/visualize_summary.py:35 | when the pattern does not start the text, it occurs in the text exactly when it occurs after the first character |
| Text.RemoveAllChar | toolkit/helper_scripts/analysis/visualize_summary.py:59 | after `replace("v", "")` no `v` is left |
| Text.ParseNatToString | toolkit/helper_scripts/analysis/visualize_summary.py:185 | the decimal text of a count reads back as the count |
| Text.IntToString | toolkit/helper_scripts/analysis/visualize_summary.py:185 | non-empty; starts with `-` exactly for a negative number; the digits after any sign read back as the number's magnitude |
| Order.SortSet | toolkit/helper_scripts/analysis/visualize_summary.py:78 | `sorted(set)` holds every element once, in strictly ascending order |
| Order.LtStrictTotal | toolkit/helper_scripts/analysis/visualize_summary.py:29 | of `a < b`, `a == b` and `b < a` exactly one holds |
| Order.LtProperPrefix | toolkit/helper_scripts/analysis/visualize_summary.py:29 | a proper prefix sorts first, as `"1.0" < "1.0.1"` |
| Order.LtFirstDifference | toolkit/helper_scripts/analysis/visualize_summary.py:29 | otherwise the first differing character decides, as `"1.10" < "1.9"` |
| Order.SortedUnique | toolkit/helper_scripts/analysis/visualize_summary.py:78 | two strictly ascending sequences with the same elements are equal |
| Order.FilterSorted | toolkit/helper_scripts/analysis/visualize_summary.py:29-30 | keeping some names of a sorted listing keeps it sorted |
| Snapshots.CoreRefs | toolkit/helper_scripts/analysis/visualize_summary.py:36 | defined exactly when every core entry has an element 1; its keys are exactly the paths without `LM_`; each value is element 1 of the path's list |
| Snapshots.IsCoreFile | toolkit/helper_scripts/analysis/visualize_summary.py:36 | a path is a core file exactly when `LM_` occurs nowhere in it |
| Snapshots.ParseSnapshot | toolkit/helper_scripts/analysis/visualize_summary.py:31-37 | succeeds exactly when the file is JSON with `summary` and `files` and every core entry is long enough, with one error kind per exception; the record has the summary's metrics, the name with `.json` removed as its version, and the core reference counts |
| Snapshots.NamedSorted | toolkit/helper_scripts/analysis/visualize_summary.py:29-30 | the files are opened in strictly ascending name order, each once |
| Snapshots.JsonNames | toolkit/helper_scripts/analysis/visualize_summary.py:29-30 | the names opened are exactly the folder's names ending in `.json`, in strictly ascending order |
| Snapshots.MetaNames | toolkit/helper_scripts/analysis/visualize_summary.py:43-44 | the names opened are exactly the folder's names ending in `.meta`, in strictly ascending order |
| Snapshots.LoadJsonFiles | toolkit/helper_scripts/analysis/visualize_summary.py:26-38 | on success, one record per `.json` file |
| Snapshots.LoadJsonFilesSucceeds | toolkit/helper_scripts/analysis/visualize_summary.py:26-38 | loading succeeds exactly when every `.json` file of the folder is a well-formed snapshot |
| Snapshots.LoadJsonFilesRecords | toolkit/helper_scripts/analysis/visualize_summary.py:29-37 | the i-th record is the parse of the i-th `.json` name: its version is the name without `.json`, and its core counts are element 1 of exactly the snapshot's non-`LM_` entries |
| Snapshots.LoadJsonFilesFirstError | toolkit/helper_scripts/analysis/visualize_summary.py:29-37 | on failure the error is the first malformed file's, in name order, and every earlier file parses |
| Snapshots.VersionOfJsonName | toolkit/helper_scripts/analysis/visualize_summary.py:35 | `<stem>.json` gets the version `<stem>` when the stem has no `.json` inside |
| Snapshots.VersionDropsInnerSuffix | toolkit/helper_scripts/analysis/visualize_summary.py:35 | `replace` removes every `.json`: `a.json.json` gets version `a` |
| Snapshots.ParseMeta | toolkit/helper_scripts/analysis/visualize_summary.py:46-51 | a record exactly when the stripped text contains `": "`; then the version is the name without `.meta`, the id has no `": "`, and `id + ": " + message` is the stripped text |
| Snapshots.MetaRoundTrip | toolkit/helper_scripts/analysis/visualize_summary.py:47-51 | writing `<id>: <message>` and parsing it gives the id and message back |
| Snapshots.MetaWithoutColonSkipped | toolkit/helper_scripts/analysis/visualize_summary.py:48 | a note without a colon, such as `abc123 no colon here`, is skipped rather than failing |
| Snapshots.LoadMetaFiles | toolkit/helper_scripts/analysis/visualize_summary.py:40-52 | never more records than `.meta` files |
| Snapshots.LoadMetaFilesInOrder | toolkit/helper_scripts/analysis/visualize_summary.py:43-51 | the k-th record is the parse of the k-th well-formed `.meta` file, the files taken in strictly ascending name order, and every well-formed file has its place |
| Snapshots.LoadMetaFilesAllWellFormed | toolkit/helper_scripts/analysis/visualize_summary.py:43-51 | when every `.meta` file is well formed, there is one record per file and the i-th record is the parse of the i-th name |
| Snapshots.LoadMetaFilesSound | toolkit/helper_scripts/analysis/visualize_summary.py:43-51 | every record comes from some `.meta` file of the folder |
| Snapshots.LoadMetaFilesComplete | toolkit/helper_scripts/analysis/visualize_summary.py:43-51 | every well-formed `.meta` file contributes its record |
| Snapshots.LoadReleaseVersions | toolkit/helper_scripts/analysis/visualize_summary.py:54-62 | an unreadable file gives no releases; otherwise one release per whitespace token, with every `v` removed, so no release contains `v` or whitespace |
| Snapshots.CleanReleaseOfToken | toolkit/helper_scripts/analysis/visualize_summary.py:59 | for a token without whitespace, `replace("v", "").strip()` only removes the `v`s, and leaves neither `v` nor whitespace |
| Series.AllFiles | toolkit/helper_scripts/analysis/visualize_summary.py:78 | a path is in the union exactly when some snapshot lists it |
| Series.RefSeries | toolkit/helper_scripts/analysis/visualize_summary.py:79 | one entry per version: the snapshot's count, or 0 when that snapshot does not list the file |
| Series.RefOrZero | toolkit/helper_scripts/analysis/visualize_summary.py:79 | `get(f, 0)` is the reported count when the snapshot lists the file, and a non-zero result is always a reported count |
| Series.RefsByFile | toolkit/helper_scripts/analysis/visualize_summary.py:78-79 | one series per file some snapshot lists, and nothing else; each series has one entry per snapshot |
| Series.BuildTimeline | toolkit/helper_scripts/analysis/visualize_summary.py:66-79 | every series has one entry per snapshot, and entry i is snapshot i's version or metric |
| Series.TimelineFiles | toolkit/helper_scripts/analysis/visualize_summary.py:78-79 | the file axis is strictly ascending and holds exactly the files some snapshot lists; there is one series per file on it |
| Series.DenseMatchesSparse | toolkit/helper_scripts/analysis/visualize_summary.py:79 | a dense series holds every reported count at its version and 0 where the file was not reported |
| Series.NonZeroWasReported | toolkit/helper_scripts/analysis/visualize_summary.py:79 | a non-zero dense entry is a count that snapshot reported |
| Series.AppendSnapshotSeries | toolkit/helper_scripts/analysis/visualize_summary.py:66-75 | one more snapshot appends its version and metrics to the end of each series |
| Series.AppendSnapshotRefs | toolkit/helper_scripts/analysis/visualize_summary.py:78-79 | one more snapshot appends one point to every file's series; a new file starts with a 0 for every earlier version |
| Series.TwoVersionExample | toolkit/helper_scripts/analysis/visualize_summary.py:78-79 | two snapshots listing `{a: 5, b: 1}` and `{a: 8, c: 4}` give the axis `[a, b, c]` and the series `[5, 8]`, `[1, 0]` and `[0, 4]` |
| Exclusion.Classify | toolkit/helper_scripts/analysis/visualize_summary.py:180-187 | the files drawn are exactly those whose last count is above 3; the excluded list holds `"<file> (<count>)"` for every other file; both keep the file order |
| Exclusion.VisitedDraws | toolkit/helper_scripts/analysis/visualize_summary.py:183-187 | visiting the files one at a time draws exactly the files above the threshold, in order |
| Exclusion.VisitedLists | toolkit/helper_scripts/analysis/visualize_summary.py:183-186 | visiting the files one at a time lists exactly the others, with their last counts, in order |
| Exclusion.PartitionExact | toolkit/helper_scripts/analysis/visualize_summary.py:184 | each file is drawn or listed, never both, according to its last count alone |
| Exclusion.DependsOnlyOnLast | toolkit/helper_scripts/analysis/visualize_summary.py:184-185 | two histories whose last counts agree are split identically, whatever came before |
| Exclusion.Annotations | toolkit/helper_scripts/analysis/visualize_summary.py:195-204 | the second loop over all files never gives more annotations than there are files |
| Exclusion.AnnotationsLabelDrawn | toolkit/helper_scripts/analysis/visualize_summary.py:195-204 | the second loop, skipping counts of 3 or less on its own, annotates exactly the drawn files, each with `"<file> (<count>)"`, in the order the first loop draws them |
| Exclusion.ExcludedText | toolkit/helper_scripts/analysis/visualize_summary.py:206-210 | the text block is shown exactly when some file is excluded |
| Exclusion.ExcludedTextLines | toolkit/helper_scripts/analysis/visualize_summary.py:206-210 | line by line, the block is `Excluded Files:` followed by the excluded entries |
| Exclusion.LabelOneLine | toolkit/helper_scripts/analysis/visualize_summary.py:185 | a label is one line when its file name is |
| Exclusion.LabelReadsBack | toolkit/helper_scripts/analysis/visualize_summary.py:185 | `f"{file} ({count})"` is the file name, then ` (`, then digits that read back as the count when it is not negative, then `)` |
| Exclusion.LastRef | toolkit/helper_scripts/analysis/visualize_summary.py:184-185 | `refs[-1]`: the last entry of a non-empty series, and 0 for a file without one |
| Exclusion.VisitedNext | toolkit/helper_scripts/analysis/visualize_summary.py:183-187 | visiting one more file extends exactly one of the two lists: the drawn files when its last count is above 3, the excluded entries otherwise |
| Exclusion.VisitedListsLast | toolkit/helper_scripts/analysis/visualize_summary.py:184-185 | the last file visited adds its entry to the excluded list exactly when it is excluded |
| Exclusion.TimelineHasPoints | toolkit/helper_scripts/analysis/visualize_summary.py:79 | every file on the timeline has a series with a last point, so `refs[-1]` never fails |
| Exclusion.ExampleSplit | toolkit/helper_scripts/analysis/visualize_summary.py:183-187 | with last counts 8, 0 and 4, `a` and `c` are drawn and `b (0)` is listed |
| Exclusion.ThresholdBoundary | toolkit/helper_scripts/analysis/visualize_summary.py:184 | a history `[100, 100, 3]` is listed; `[0, 0, 4]` is drawn |
| Report.Highlights | toolkit/helper_scripts/analysis/visualize_summary.py:99-101 | a marker goes exactly at the indices whose version is a release, in increasing order |
| Report.VersionWithVNeverHighlighted | toolkit/helper_scripts/analysis/visualize_summary.py:59-60 | a version containing `v` is never a release |
| Report.RecentCommits | toolkit/helper_scripts/analysis/visualize_summary.py:260 | the last `min(n, 60)` commits, a suffix of the history |
| Report.RecentCommitsLatest | toolkit/helper_scripts/analysis/visualize_summary.py:260 | up to 60 commits are all shown; beyond that, the newest 60 |
| Seqs.SliceLast | toolkit/helper_scripts/analysis/visualize_summary.py:260 | `s[-k:]` for a positive `k` is the last `min(k, len(s))` elements |
| Report.SeventyCommits | toolkit/helper_scripts/analysis/visualize_summary.py:260 | of 70 commits, the last 60 are shown, oldest first |
| Report.Cell | toolkit/helper_scripts/analysis/visualize_summary.py:263 | a message cell is one line of at most 105 characters: empty for a message without words, the wrapped line when there is one, and otherwise the first wrapped line cut to 102 characters plus `...` when longer than that |
| Report.CommitTable | toolkit/helper_scripts/analysis/visualize_summary.py:261-264 | a header row, then per shown commit its version, its commit id and the `Cell` of its message, one line of at most 105 characters |
| Report.FontSizeOfHistory | toolkit/helper_scripts/analysis/visualize_summary.py:279 | the large font is used exactly when the history has fewer than 10 commits, so the 60-commit cut never changes it |
| Report.FontSize | toolkit/helper_scripts/analysis/visualize_summary.py:279 | the font is 12 or 10, and it is 12 exactly when fewer than 10 commits are shown |
| Report.LastCounts | toolkit/helper_scripts/analysis/visualize_summary.py:79 | the last point of a file's series is its count in the newest snapshot, or 0 |
| Report.PlottedByNewest | toolkit/helper_scripts/analysis/visualize_summary.py:180-187 | a file is drawn exactly when the newest snapshot lists it with more than 3 references |
| Report.Render | toolkit/helper_scripts/analysis/visualize_summary.py:64-301 | fails exactly for an empty history; otherwise the timeline, the last points, the release markers at exactly the release indices, the files drawn (those the newest snapshot lists above 3, in name order) with their annotations, the excluded list and its text block, the commit table and the font size |
| Report.NoSnapshotsNoReport | toolkit/helper_scripts/analysis/visualize_summary.py:26-38 | the loaded history is empty exactly when the folder has no `.json` file |
| Report.Run | toolkit/helper_scripts/analysis/visualize_summary.py:303-313 | fails with the loader's error on a malformed snapshot and fails when no snapshot exists; otherwise every page shows what `Render` promises for the loaded snapshots, the loaded commits and the releases read from the folder's `release_versions.info` |

## Left out

- Drawing with matplotlib is not modelled: figures, axes, colours, legends, styles
  and PDF pages. `Report.Render` returns what each page shows instead.
- Floating-point layout is left out. This covers the table's cell height
  `1 / num_rows`, the excluded block's vertical position `max(...) / 4` and the
  axis limits.
- The pylint scores are carried through as opaque `Score` values, because the script
  only plots them.
- Filesystem access and `json.load` are left out. The folder is a map from file name
  to content, and each entry carries the JSON parse outcome. JSON syntax itself is
  not modelled.
- `Report.Run` reads the releases from the folder's `release_versions.info` entry;
  a missing entry gives no releases, as the `except` branch does (lines 56-62). A
  file that exists but cannot be opened or decoded is not modelled: every entry of
  the folder map reads. The diagnostic `print` (line 61) and the final `print`
  (line 314) are left out.
- MessageFormat.Wrap: a stand-in for `textwrap.wrap` with its default settings.
  It follows textwrap's greedy filling: a word joins the line after one space when
  it fits, and a word longer than the width fills what is left of the current line
  and goes on, cut at the width, on the next lines. When only the space fits, the
  space stays at the end of the line, as in textwrap (`"abcd efghijklmn"` at width 5
  gives `["abcd ", "efghi", "jklmn"]`). It still differs from textwrap in four ways:
  - It collapses every whitespace run to one space or a line break, where textwrap
    keeps runs of spaces inside a line (`"a  b"` at width 10 gives `["a b"]`,
    textwrap `["a  b"]`).
  - It drops the whitespace before the first word, which textwrap keeps on the
    first line.
  - It separates words at every character `isspace` accepts, non-ASCII whitespace
    included, where textwrap separates only at `\t\n\x0b\x0c\r` and space.
  - It never breaks after a hyphen, where textwrap does (`"foo-bar baz"` at width 5
    gives `["foo-b", "ar", "baz"]`, textwrap `["foo-", "bar", "baz"]`).

  `TruncateLinesFit` asks only for lines textwrap's output also satisfies.
- Exclusion.Classify: requires that every file has a non-empty series. The script
  would raise IndexError otherwise. `Exclusion.TimelineHasPoints` shows that every
  timeline meets the requirement.
- Snapshots.Summary: every summary is taken to have `core`, `load`, `core_score`,
  `load_score` and `load_dep`, with the lists long enough. The script loads a
  summary without them and then raises KeyError or IndexError in
  `visualize_timeline` (lines 69-75); those failures are not modelled.
- Snapshots.LoadError: the `file` field records which snapshot failed. It is the
  model's own bookkeeping: Python's exceptions do not carry the file name.
- Report.Render: the failure covers only the empty history. Other exceptions
  matplotlib could raise are outside the model.
- The hard-coded folder and output names in `main` (lines 304-305) are left out;
  `Report.Run` takes the folder contents as a parameter.

=== FILE: exclusion.dfy ===
/** The exclusion policy of the core-references chart: a file is drawn only when its
    most recent reference count exceeds a fixed threshold; every other file is
    listed beside the chart as `"<file> (<count>)"`. */
module Exclusion {
  import opened Results
  import opened Text
  import Seqs
  import Series
  import Snapshots
  import Order

  /** `skip_if_ref_under` */
  const SkipIfRefUnder: int := 3

  const ExcludedHeading: string := "Excluded Files:"

  /** `f"{file} ({value})"`, the text of a chart annotation and of an entry in the
      excluded list. */
  function Label(file: string, value: int): string {
    file + " (" + IntToString(value) + ")"
  }

  /** A label starts with the file name and ` (`, ends with `)`, and the count
      between the parentheses reads back as the value. */
  lemma LabelReadsBack(file: string, value: int)
    ensures var r := Label(file, value);
      && |r| >= |file| + 4 && r[..|file|] == file && r[|file|..|file| + 2] == " ("
      && r[|r| - 1] == ')'
      && (value >= 0 ==> IsDigits(r[|file| + 2..|r| - 1]) && ParseNat(r[|file| + 2..|r| - 1]) == value)
  {
    var digits := IntToString(value);
    var r := file + " (" + digits + ")";
    assert Label(file, value) == r;
    assert |r| == |file| + 3 + |digits|;
    assert r[..|file|] == file;
    assert r[|file|..|file| + 2] == " (";
    assert r[|file| + 2..|r| - 1] == digits;
  }

  /** The most recent count of `file`, `refs[-1]`; 0 for a file without a series
      (which the timeline never has, see `TimelineHasPoints`). */
  function LastRef(series: map<string, seq<int>>, file: string): (n: int)
    ensures file in series && series[file] != [] ==> Seqs.At(series[file], -1) == Some(n)
    ensures file !in series || series[file] == [] ==> n == 0
  {
    if file in series && series[file] != [] then Seqs.Last(series[file]) else 0
  }

  /** Every file has a series with at least one point, which is what `refs[-1]`
      needs. */
  predicate HasPoints(files: seq<string>, series: map<string, seq<int>>) {
    forall i :: 0 <= i < |files| ==> files[i] in series && series[files[i]] != []
  }

  /** The test of line 184, negated: the file is drawn. */
  function IsPlotted(series: map<string, seq<int>>): string -> bool {
    f => LastRef(series, f) > SkipIfRefUnder
  }

  /** The test of line 184: the file is only listed. */
  function IsExcluded(series: map<string, seq<int>>): string -> bool {
    f => LastRef(series, f) <= SkipIfRefUnder
  }

  /** The excluded-list entry of a file. */
  function EntryOf(series: map<string, seq<int>>): string -> string {
    f => Label(f, LastRef(series, f))
  }

  /** The two lists after the files of `files` have been visited in order: the files
      drawn, and the entries of the excluded list. */
  function Visited(files: seq<string>, series: map<string, seq<int>>): (seq<string>, seq<string>)
    decreases |files|
  {
    if files == [] then ([], [])
    else
      var before := Visited(files[..|files| - 1], series);
      var f := files[|files| - 1];
      if LastRef(series, f) <= SkipIfRefUnder then (before.0, before.1 + [Label(f, LastRef(series, f))])
      else (before.0 + [f], before.1)
  }

  /** Visiting one more file extends exactly one of the two lists. */
  lemma VisitedNext(files: seq<string>, series: map<string, seq<int>>, i: int)
    requires 0 <= i < |files|
    ensures var before := Visited(files[..i], series);
      var f := files[i];
      Visited(files[..i + 1], series)
        == if LastRef(series, f) <= SkipIfRefUnder then (before.0, before.1 + [Label(f, LastRef(series, f))])
           else (before.0 + [f], before.1)
  {
    assert files[..i + 1][..i] == files[..i];
  }

  /** Visiting the files one by one draws exactly those above the threshold, in the
      order of `files`... */
  lemma {:induction false} VisitedDraws(files: seq<string>, series: map<string, seq<int>>)
    ensures Visited(files, series).0 == Seqs.Filter(IsPlotted(series), files)
    decreases |files|
  {
    if files != [] {
      var init := files[..|files| - 1];
      var f := files[|files| - 1];
      VisitedDraws(init, series);
      assert files == init + [f];
      Seqs.FilterAppend(IsPlotted(series), init, [f]);
      assert Seqs.Filter(IsPlotted(series), [f]) == if LastRef(series, f) > SkipIfRefUnder then [f] else [];
    }
  }

  /** ... and lists the others, with their last counts, in the same order. */
  lemma {:induction false} VisitedLists(files: seq<string>, series: map<string, seq<int>>)
    ensures Visited(files, series).1 == Seqs.Map(EntryOf(series), Seqs.Filter(IsExcluded(series), files))
    decreases |files|
  {
    if files != [] {
      var init := files[..|files| - 1];
      var f := files[|files| - 1];
      var prev := Seqs.Filter(IsExcluded(series), init);
      var last := Seqs.Filter(IsExcluded(series), [f]);
      assert files == init + [f];
      VisitedLists(init, series);
      VisitedListsLast(init, f, series);
      Seqs.FilterAppend(IsExcluded(series), init, [f]);
      Seqs.MapAppend(EntryOf(series), prev, last);
    }
  }

  /** The last file visited adds its entry exactly when it is excluded. */
  lemma VisitedListsLast(init: seq<string>, f: string, series: map<string, seq<int>>)
    ensures Visited(init + [f], series).1
      == Visited(init, series).1 + Seqs.Map(EntryOf(series), Seqs.Filter(IsExcluded(series), [f]))
  {
    assert (init + [f])[..|init|] == init;
    if LastRef(series, f) <= SkipIfRefUnder {
      assert Seqs.Filter(IsExcluded(series), [f]) == [f];
      assert Seqs.Map(EntryOf(series), [f]) == [EntryOf(series)(f)];
    } else {
      assert Seqs.Filter(IsExcluded(series), [f]) == [];
    }
  }

  /** The first loop over `core_refs_by_file` (lines 183-187): the files drawn, and
      the excluded list, both in the order of `files`. */
  method Classify(files: seq<string>, series: map<string, seq<int>>)
      returns (plotted: seq<string>, excluded: seq<string>)
    requires HasPoints(files, series)
    ensures plotted == Seqs.Filter(IsPlotted(series), files)
    ensures excluded == Seqs.Map(EntryOf(series), Seqs.Filter(IsExcluded(series), files))
  {
    plotted := [];
    excluded := [];
    var i := 0;
    while i < |files|
      invariant 0 <= i <= |files|
      invariant (plotted, excluded) == Visited(files[..i], series)
    {
      var file := files[i];
      var refs := series[file];
      VisitedNext(files, series, i);
      assert LastRef(series, file) == refs[|refs| - 1];
      if refs[|refs| - 1] <= SkipIfRefUnder {
        excluded := excluded + [Label(file, refs[|refs| - 1])];
      } else {
        plotted := plotted + [file];
      }
      i := i + 1;
    }
    assert files[..i] == files;
    VisitedDraws(files, series);
    VisitedLists(files, series);
  }

  /** The second loop (lines 195-204): it walks all of `files` again, skips every
      file whose last count is at most the threshold and annotates the others with
      `"<file> (<count>)"`. The first loop has already read `refs[-1]` of every file,
      so `LastRef` is that count here. */
  function Annotations(files: seq<string>, series: map<string, seq<int>>): (r: seq<string>)
    ensures |r| <= |files|
    decreases |files|
  {
    if files == [] then []
    else
      var before := Annotations(files[..|files| - 1], series);
      var f := files[|files| - 1];
      if LastRef(series, f) <= SkipIfRefUnder then before
      else before + [Label(f, LastRef(series, f))]
  }

  /** The annotations are exactly the labels of the drawn lines, in the order they
      are drawn: the second loop skips the same files as the first. */
  lemma {:induction false} AnnotationsLabelDrawn(files: seq<string>, series: map<string, seq<int>>)
    ensures Annotations(files, series) == Seqs.Map(EntryOf(series), Seqs.Filter(IsPlotted(series), files))
    decreases |files|
  {
    if files != [] {
      var init := files[..|files| - 1];
      var f := files[|files| - 1];
      var prev := Seqs.Filter(IsPlotted(series), init);
      var last := Seqs.Filter(IsPlotted(series), [f]);
      var entry := if LastRef(series, f) > SkipIfRefUnder then [Label(f, LastRef(series, f))] else [];
      assert Seqs.Filter(IsPlotted(series), files) == prev + last by {
        assert files == init + [f];
        Seqs.FilterAppend(IsPlotted(series), init, [f]);
      }
      assert Seqs.Map(EntryOf(series), prev + last) == Annotations(init, series) + entry by {
        AnnotationsLabelDrawn(init, series);
        Seqs.MapAppend(EntryOf(series), prev, last);
        assert Seqs.Map(EntryOf(series), last) == entry by {
          assert last == if LastRef(series, f) > SkipIfRefUnder then [f] else [];
        }
      }
      assert Annotations(files, series) == Annotations(init, series) + entry;
    }
  }

  /** Every file is drawn or listed, never both, and which one depends on its last
      count alone. */
  lemma PartitionExact(files: seq<string>, series: map<string, seq<int>>)
    ensures forall f :: f in Seqs.Filter(IsPlotted(series), files) <==> f in files && LastRef(series, f) > SkipIfRefUnder
    ensures forall f :: f in Seqs.Filter(IsExcluded(series), files) <==> f in files && LastRef(series, f) <= SkipIfRefUnder
    ensures |Seqs.Filter(IsPlotted(series), files)| + |Seqs.Filter(IsExcluded(series), files)| == |files|
  {
    FilterComplement(files, series);
  }

  lemma {:induction false} FilterComplement(files: seq<string>, series: map<string, seq<int>>)
    ensures |Seqs.Filter(IsPlotted(series), files)| + |Seqs.Filter(IsExcluded(series), files)| == |files|
    decreases |files|
  {
    if files != [] {
      FilterComplement(files[1..], series);
    }
  }

  /** Two histories with the same last counts are split the same way, whatever came
      before: the policy looks at nothing but the most recent version. */
  lemma {:induction false} DependsOnlyOnLast(files: seq<string>, a: map<string, seq<int>>, b: map<string, seq<int>>)
    requires forall f :: f in files ==> LastRef(a, f) == LastRef(b, f)
    ensures Seqs.Filter(IsPlotted(a), files) == Seqs.Filter(IsPlotted(b), files)
    ensures Seqs.Map(EntryOf(a), Seqs.Filter(IsExcluded(a), files))
         == Seqs.Map(EntryOf(b), Seqs.Filter(IsExcluded(b), files))
    decreases |files|
  {
    if files != [] {
      assert forall f :: f in files[1..] ==> f in files;
      DependsOnlyOnLast(files[1..], a, b);
    }
  }

  /** The text beside the chart, when any file is excluded (lines 206-210). */
  function ExcludedText(excluded: seq<string>): (r: Option<string>)
    ensures r.Some? <==> excluded != []
  {
    if excluded == [] then None else Some(ExcludedHeading + "\n" + Join(excluded, "\n"))
  }

  /** The excluded block reads, line by line, as the heading followed by the
      excluded entries. */
  lemma ExcludedTextLines(excluded: seq<string>)
    requires excluded != []
    requires forall k :: 0 <= k < |excluded| ==> '\n' !in excluded[k]
    ensures ExcludedText(excluded).Some?
    ensures SplitOn(ExcludedText(excluded).value, '\n') == [ExcludedHeading] + excluded
  {
    var lines := [ExcludedHeading] + excluded;
    assert lines[1..] == excluded;
    assert Join(lines, "\n") == ExcludedHeading + "\n" + Join(excluded, "\n");
    SplitOnJoin(lines, '\n');
  }

  /** A label is one line when its file name is. */
  lemma LabelOneLine(file: string, value: int)
    requires '\n' !in file
    ensures '\n' !in Label(file, value)
  {
    var digits := IntToString(value);
    assert forall k :: 0 <= k < |digits| ==> digits[k] != '\n' by {
      if value < 0 {
        assert digits[1..] == NatToString(-value);
      }
    }
  }

  /** The files of any history's timeline have a series with points. */
  lemma TimelineHasPoints(data: seq<Snapshots.VersionRecord>)
    ensures var t := Series.BuildTimeline(data); HasPoints(t.allFiles, t.refsByFile)
  {
    var t := Series.BuildTimeline(data);
    Series.TimelineFiles(data);
    forall i | 0 <= i < |t.allFiles|
      ensures t.allFiles[i] in t.refsByFile && t.refsByFile[t.allFiles[i]] != []
    {
      assert t.allFiles[i] in t.allFiles;
      assert |t.refsByFile[t.allFiles[i]]| == |data|;
    }
  }

  /** Three files with the series [5, 8], [1, 0] and [0, 4]: the one whose count
      fell to 0 is listed as `"<b> (0)"`, the two whose last counts are 8 and 4 are
      drawn. */
  lemma ExampleSplit(a: string, b: string, c: string)
    requires a != b && b != c && a != c
    ensures var series := map[a := [5, 8], b := [1, 0], c := [0, 4]];
      && Seqs.Filter(IsPlotted(series), [a, b, c]) == [a, c]
      && Seqs.Map(EntryOf(series), Seqs.Filter(IsExcluded(series), [a, b, c])) == [b + " (0)"]
  {
    var series := map[a := [5, 8], b := [1, 0], c := [0, 4]];
    assert LastRef(series, a) == 8 && LastRef(series, b) == 0 && LastRef(series, c) == 4;
    assert [a, b, c][1..] == [b, c] && [b, c][1..] == [c];
    assert Seqs.Filter(IsPlotted(series), [c]) == [c];
    assert Seqs.Filter(IsPlotted(series), [b, c]) == [c];
    assert Seqs.Filter(IsExcluded(series), [c]) == [];
    assert Seqs.Filter(IsExcluded(series), [b, c]) == [b];
    assert Seqs.Filter(IsExcluded(series), [a, b, c]) == [b];
    assert IntToString(0) == "0";
    assert Label(b, 0) == b + " (0)";
    assert Seqs.Map(EntryOf(series), [b]) == [Label(b, 0)];
  }

  /** Counts right at the threshold are listed; one above it is drawn. */
  lemma ThresholdBoundary(f: string, g: string)
    requires f != g
    ensures var series := map[f := [100, 100, 3], g := [0, 0, 4]];
      && Seqs.Filter(IsPlotted(series), [f, g]) == [g]
      && Seqs.Filter(IsExcluded(series), [f, g]) == [f]
  {
    var series := map[f := [100, 100, 3], g := [0, 0, 4]];
    assert LastRef(series, f) == 3 && LastRef(series, g) == 4;
    assert [f, g][1..] == [g];
  }
}

=== FILE: message_format.dfy ===
/** `truncate_message`: wrap a commit message to a width and cap it at a number of
    lines, marking a cut line with an ellipsis.

    The wrapping step is `textwrap.wrap(message, width)` in the script. `Wrap`
    below follows textwrap's greedy filling with its defaults: it fails for a width
    below 1, a word joins the line after one space when it fits, and a word longer
    than the width fills what is left of the current line and goes on, cut at the
    width, on the next lines. It is NOT textwrap line for line: it turns every
    whitespace run into a single space or a line break (textwrap keeps runs of
    spaces inside a line), drops the whitespace before the first word (textwrap
    keeps it on the first line), separates words at every character `isspace`
    accepts (textwrap only at the ASCII whitespace `\t\n\x0b\x0c\r` and space) and
    never breaks after a hyphen (textwrap's break_on_hyphens does). `TruncateLines`
    is the script's own capping logic; `TruncateLinesFit` asks of its input only
    what textwrap's lines also satisfy (`FitsLine`). */
module MessageFormat {
  import opened Results
  import opened Text
  import Seqs

  /** textwrap raises ValueError for a width below 1; indexing the wrapped lines
      with a too negative `max_lines - 1` raises IndexError. */
  datatype FormatError = InvalidWidth | LineIndexOutOfRange

  const Ellipsis: string := "..."

  /** A line as `Wrap` produces it: non-empty, at most `width` characters, and the
      only whitespace in it is the plain space (so never a line break). */
  predicate WrappedLine(line: string, width: int) {
    0 < |line| <= width && forall i :: 0 <= i < |line| ==> line[i] == ' ' || !IsSpace(line[i])
  }

  /** What every line of a wrapping that breaks long words satisfies, textwrap's
      included: at most `width` characters and no line break. */
  predicate FitsLine(line: string, width: int) {
    |line| <= width && '\n' !in line
  }

  /** A wrapped line is a fitting line. */
  lemma WrappedLineFits(line: string, width: int)
    requires WrappedLine(line, width)
    ensures FitsLine(line, width)
  {
    assert IsSpace('\n');
  }

  lemma NoSpaceSlice(w: string, i: int, j: int)
    requires NoSpace(w) && 0 <= i <= j <= |w|
    ensures NoSpace(w[i..j])
  {
    assert forall k :: 0 <= k < j - i ==> w[i..j][k] == w[i + k];
  }

  /** A word joined to a line after one space, when it fits. */
  lemma JoinedLine(cur: string, p: string, width: int)
    requires WrappedLine(cur, width) && NoSpace(p) && |cur| + 1 + |p| <= width
    ensures WrappedLine(cur + " " + p, width)
  {
    var joined := cur + " " + p;
    forall i | 0 <= i < |joined|
      ensures joined[i] == ' ' || !IsSpace(joined[i])
    {
      if i < |cur| {
        assert joined[i] == cur[i];
      } else if i > |cur| {
        assert joined[i] == p[i - |cur| - 1];
      }
    }
  }

  /** What is left to pack: one unit per character and one per word. */
  function Size(words: seq<string>): nat {
    if words == [] then 0 else |words[0]| + 1 + Size(words[1..])
  }

  /** What the filling works on: a positive width, the line being built (empty at
      the start of a line) and the words still to place, each non-empty and free of
      whitespace. */
  predicate Packable(words: seq<string>, width: int, cur: string) {
    && width >= 1
    && (cur == [] || WrappedLine(cur, width))
    && forall i :: 0 <= i < |words| ==> words[i] != [] && NoSpace(words[i])
  }

  /** The state after one step of the filling: the lines it finished, the words
      left and the line now being built. */
  datatype Progress = Progress(done: seq<string>, words: seq<string>, cur: string)

  /** One step of textwrap's greedy filling, placing (part of) the next word. A word
      of at most `width` characters joins `cur` after one space when it fits and
      otherwise ends `cur` and starts the next line. A longer word is cut
      (break_long_words): its head fills what is left of the line after the space,
      and the rest is placed next. When no room is left after the space, the space
      stays at the end of the line: textwrap appends an empty head, and its
      `drop_whitespace` removes only that. */
  function Step(words: seq<string>, width: int, cur: string): (p: Progress)
    requires Packable(words, width, cur) && words != []
    ensures Packable(p.words, width, p.cur)
    ensures forall i :: 0 <= i < |p.done| ==> WrappedLine(p.done[i], width)
    ensures Size(p.words) < Size(words) || (Size(p.words) == Size(words) && |p.cur| < |cur|)
  {
    var w := words[0];
    var rest := words[1..];
    assert NoSpace(w);
    assert Packable(rest, width, []) by {
      assert forall i :: 0 <= i < |rest| ==> rest[i] == words[i + 1];
    }
    if |w| <= width then
      if cur == [] then
        Progress([], rest, w)
      else if |cur| + 1 + |w| <= width then
        JoinedLine(cur, w, width);
        Progress([], rest, cur + " " + w)
      else
        Progress([cur], rest, w)
    else if cur != [] && |cur| + 1 >= width then
      var line := if |cur| < width then cur + " " else cur;
      assert WrappedLine(line, width) by {
        if |cur| < width {
          JoinedLine(cur, [], width);
          assert cur + " " + [] == cur + " ";
        }
      }
      Progress([line], words, [])
    else
      var room := if cur == [] then width else width - |cur| - 1;
      var head := w[..room];
      var tail := w[room..];
      NoSpaceSlice(w, 0, room);
      NoSpaceSlice(w, room, |w|);
      var more := [tail] + rest;
      assert more[0] == tail && more[1..] == rest;
      assert Packable(more, width, []) by {
        assert forall i :: 1 <= i < |more| ==> more[i] == rest[i - 1];
      }
      var line := if cur == [] then head else cur + " " + head;
      assert WrappedLine(line, width) by {
        if cur != [] {
          JoinedLine(cur, head, width);
        }
      }
      Progress([line], more, [])
  }

  /** Greedy filling: steps until no word is left, then ends the last line. */
  function Pack(words: seq<string>, width: int, cur: string): (r: seq<string>)
    requires Packable(words, width, cur)
    ensures forall i :: 0 <= i < |r| ==> WrappedLine(r[i], width)
    decreases Size(words), |cur|
  {
    if words == [] then
      (if cur == [] then [] else [cur])
    else
      var p := Step(words, width, cur);
      var after := Pack(p.words, width, p.cur);
      assert forall i :: |p.done| <= i < |p.done| + |after| ==> (p.done + after)[i] == after[i - |p.done|];
      p.done + after
  }

  lemma NonSpaceJoinedPiece(cur: string, p: string)
    requires NoSpace(p)
    ensures NonSpace(cur + " " + p) == NonSpace(cur) + p
  {
    assert NonSpace(cur + " ") == NonSpace(cur) by {
      NonSpaceAppend(cur, " ");
      assert NonSpace(" ") == [];
    }
    assert NonSpace(cur + " " + p) == NonSpace(cur + " ") + NonSpace(p) by {
      NonSpaceAppend(cur + " ", p);
    }
    NonSpaceOfNoSpace(p);
  }

  lemma ConcatOne(x: string)
    ensures Concat([x]) == x
  {
    assert Concat([x]) == x + Concat([]);
  }

  lemma Regroup(x: string, y: string, z: string)
    ensures [] + (x + y) + z == x + (y + z)
    ensures x + y + z == x + (y + z)
  {
  }

  lemma Reassociate(x: string, h: string, t: string, r: string)
    ensures (x + h) + [] + (t + r) == x + ((h + t) + r)
  {
  }

  /** A step loses nothing but whitespace: the finished lines, the line being built
      and the words left hold the same characters, in order, as before the step. */
  lemma StepKeepsText(words: seq<string>, width: int, cur: string)
    requires Packable(words, width, cur) && words != []
    ensures var p := Step(words, width, cur);
      NonSpace(Concat(p.done)) + NonSpace(p.cur) + Concat(p.words) == NonSpace(cur) + Concat(words)
  {
    var w := words[0];
    assert NoSpace(w);
    assert Concat(words) == w + Concat(words[1..]);
    if |w| <= width {
      StepKeepsTextShort(words, width, cur);
    } else if cur != [] && |cur| + 1 >= width {
      StepKeepsTextFull(words, width, cur);
    } else {
      StepKeepsTextHead(words, width, cur);
    }
  }

  /** `StepKeepsText` for a word that fits the width. */
  lemma StepKeepsTextShort(words: seq<string>, width: int, cur: string)
    requires Packable(words, width, cur) && words != [] && |words[0]| <= width
    requires Concat(words) == words[0] + Concat(words[1..])
    ensures var p := Step(words, width, cur);
      NonSpace(Concat(p.done)) + NonSpace(p.cur) + Concat(p.words) == NonSpace(cur) + Concat(words)
  {
    var w := words[0];
    var rest := words[1..];
    var p := Step(words, width, cur);
    assert NonSpace(w) == w by {
      assert NoSpace(w);
      NonSpaceOfNoSpace(w);
    }
    if cur == [] {
      assert p == Progress([], rest, w);
      assert NonSpace(Concat(p.done)) == [] && NonSpace(cur) == [];
      Regroup([], w, Concat(rest));
    } else if |cur| + 1 + |w| <= width {
      assert p == Progress([], rest, cur + " " + w);
      assert NonSpace(Concat(p.done)) == [];
      NonSpaceJoinedPiece(cur, w);
      Regroup(NonSpace(cur), w, Concat(rest));
    } else {
      assert p == Progress([cur], rest, w);
      ConcatOne(cur);
      Regroup(NonSpace(cur), w, Concat(rest));
    }
  }

  /** `StepKeepsText` for a long word after a line with no room left. */
  lemma StepKeepsTextFull(words: seq<string>, width: int, cur: string)
    requires Packable(words, width, cur) && words != [] && |words[0]| > width
    requires cur != [] && |cur| + 1 >= width
    ensures var p := Step(words, width, cur);
      NonSpace(Concat(p.done)) + NonSpace(p.cur) + Concat(p.words) == NonSpace(cur) + Concat(words)
  {
    var line := if |cur| < width then cur + " " else cur;
    assert Step(words, width, cur) == Progress([line], words, []);
    ConcatOne(line);
    assert NonSpace([]) == [];
    assert NonSpace(line) == NonSpace(cur) by {
      if |cur| < width {
        NonSpaceAppend(cur, " ");
        assert NonSpace(" ") == [];
      }
    }
  }

  /** `StepKeepsText` for a long word whose head fills the line. */
  lemma StepKeepsTextHead(words: seq<string>, width: int, cur: string)
    requires Packable(words, width, cur) && words != [] && |words[0]| > width
    requires cur == [] || |cur| + 1 < width
    requires Concat(words) == words[0] + Concat(words[1..])
    ensures var p := Step(words, width, cur);
      NonSpace(Concat(p.done)) + NonSpace(p.cur) + Concat(p.words) == NonSpace(cur) + Concat(words)
  {
    var w := words[0];
    var rest := words[1..];
    var room := if cur == [] then width else width - |cur| - 1;
    var head := w[..room];
    var tail := w[room..];
    var line := if cur == [] then head else cur + " " + head;
    assert Step(words, width, cur) == Progress([line], [tail] + rest, []);
    assert NoSpace(head) by {
      assert NoSpace(w);
      NoSpaceSlice(w, 0, room);
    }
    HeadKeepsText(cur, line, head, tail, rest);
    assert w == head + tail;
    Reassociate(NonSpace(cur), head, tail, Concat(rest));
  }

  /** The characters of a line ended by a word's head, the empty line after it and
      the word's tail followed by the other words. */
  lemma HeadKeepsText(cur: string, line: string, head: string, tail: string, rest: seq<string>)
    requires NoSpace(head)
    requires line == if cur == [] then head else cur + " " + head
    ensures NonSpace(Concat([line])) + NonSpace([]) + Concat([tail] + rest)
         == (NonSpace(cur) + head) + [] + (tail + Concat(rest))
  {
    assert NonSpace(Concat([line])) == NonSpace(cur) + head by {
      ConcatOne(line);
      if cur == [] {
        NonSpaceOfNoSpace(head);
      } else {
        NonSpaceJoinedPiece(cur, head);
      }
    }
    assert NonSpace([]) == [];
    assert Concat([tail] + rest) == tail + Concat(rest) by {
      assert ([tail] + rest)[0] == tail && ([tail] + rest)[1..] == rest;
    }
  }

  /** Packing loses nothing but whitespace: the lines hold the characters of `cur`
      and then those of the words, in order. */
  lemma {:induction false} PackKeepsText(words: seq<string>, width: int, cur: string)
    requires Packable(words, width, cur)
    ensures NonSpace(Concat(Pack(words, width, cur))) == NonSpace(cur) + Concat(words)
    decreases Size(words), |cur|
  {
    if words == [] {
      if cur != [] {
        ConcatOne(cur);
      }
      assert NonSpace(cur) + [] == NonSpace(cur);
    } else {
      var p := Step(words, width, cur);
      var after := Pack(p.words, width, p.cur);
      assert Pack(words, width, cur) == p.done + after;
      var done := NonSpace(Concat(p.done));
      assert NonSpace(Concat(after)) == NonSpace(p.cur) + Concat(p.words) by {
        PackKeepsText(p.words, width, p.cur);
      }
      assert NonSpace(Concat(p.done + after)) == done + NonSpace(Concat(after)) by {
        ConcatAppend(p.done, after);
        NonSpaceAppend(Concat(p.done), Concat(after));
      }
      assert done + NonSpace(p.cur) + Concat(p.words) == NonSpace(cur) + Concat(words) by {
        StepKeepsText(words, width, cur);
      }
      Regroup(done, NonSpace(p.cur), Concat(p.words));
    }
  }

  /** Stand-in for `textwrap.wrap(text, width)`: fails exactly when the width is
      below 1; otherwise every line is a `WrappedLine` and, apart from whitespace,
      the lines hold exactly the text's characters in order. */
  function Wrap(text: string, width: int): (r: Result<seq<string>, FormatError>)
    ensures r.Failure? <==> width < 1
    ensures r.Success? ==> forall i :: 0 <= i < |r.value| ==> WrappedLine(r.value[i], width)
    ensures r.Success? ==> NonSpace(Concat(r.value)) == NonSpace(text)
  {
    if width < 1 then Failure(InvalidWidth)
    else
      var words := Split(text);
      SplitKeepsText(text);
      assert NonSpace([]) == [];
      PackKeepsText(words, width, []);
      Success(Pack(words, width, []))
  }

  /** How the last kept `line` appears: unchanged when it has at most `width - 3`
      characters; otherwise `line[:width - 3]` marked with the ellipsis. For a width
      below 3 that slice counts from the end, dropping `3 - width` characters (all of
      them when the line is shorter), so the ellipsis is always added. */
  predicate MarksCut(line: string, kept: string, width: int) {
    && (|line| <= width - 3 ==> kept == line)
    && (|line| > width - 3 && width >= 3 ==> kept == line[..width - 3] + Ellipsis)
    && (width < 3 ==> kept == line[..Seqs.Max(0, |line| - (3 - width))] + Ellipsis)
  }

  /** The script's capping of already wrapped `lines` at `maxLines`, with Python's
      index and slice rules: `lines[maxLines - 1]` and `lines[:maxLines - 1]` count
      from the end when `maxLines - 1` is negative, and the cut `line[:width - 3]`
      does the same when `width < 3`. */
  function TruncateLines(lines: seq<string>, width: int, maxLines: int): (r: Result<seq<string>, FormatError>)
    // Few enough lines: returned unchanged.
    ensures |lines| <= maxLines ==> r == Success(lines)
    // Python raises IndexError only for a negative cap that reaches past the front.
    ensures r.Failure? <==> maxLines < 0 && |lines| <= -maxLines
    // A positive cap keeps the first maxLines - 1 lines verbatim, then the cut line.
    ensures 1 <= maxLines < |lines| ==>
      && r.Success?
      && |r.value| == maxLines
      && r.value[..maxLines - 1] == lines[..maxLines - 1]
      && MarksCut(lines[maxLines - 1], r.value[maxLines - 1], width)
    // A cap of 0 or below counts from the end: |lines| + maxLines lines are kept, the
    // last of them cut like any other (with 0 the count is unchanged, the last line
    // still cut).
    ensures maxLines <= 0 && |lines| + maxLines >= 1 ==>
      var k := |lines| + maxLines - 1;
      && r.Success?
      && |r.value| == k + 1
      && r.value[..k] == lines[..k]
      && MarksCut(lines[k], r.value[k], width)
  {
    if |lines| > maxLines then
      match Seqs.At(lines, maxLines - 1)
      case None => Failure(LineIndexOutOfRange)
      case Some(last) =>
        var kept := if |last| > width - 3 then Seqs.SliceTo(last, width - 3) + Ellipsis else last;
        Success(Seqs.SliceTo(lines, maxLines - 1) + [kept])
    else
      Success(lines)
  }

  /** `truncate_message(message, wrap_width, max_lines)` */
  function TruncateMessage(message: string, width: int, maxLines: int): (r: Result<string, FormatError>)
    ensures width < 1 ==> r == Failure(InvalidWidth)
    ensures width >= 1 && maxLines >= 1 ==> r.Success?
  {
    match Wrap(message, width)
    case Failure(e) => Failure(e)
    case Success(lines) =>
      match TruncateLines(lines, width, maxLines)
      case Failure(e) => Failure(e)
      case Success(kept) => Success(Join(kept, "\n"))
  }

  /** With `width >= 3` and lines that fit the width, a positive cap gives at most
      `maxLines` lines, each still fitting the width. */
  lemma TruncateLinesFit(lines: seq<string>, width: int, maxLines: int)
    requires width >= 3 && maxLines >= 1
    requires forall i :: 0 <= i < |lines| ==> FitsLine(lines[i], width)
    ensures TruncateLines(lines, width, maxLines).Success?
    ensures var kept := TruncateLines(lines, width, maxLines).value;
      && |kept| <= maxLines
      && forall i :: 0 <= i < |kept| ==> FitsLine(kept[i], width)
  {
    var kept := TruncateLines(lines, width, maxLines).value;
    if |lines| > maxLines {
      var last := lines[maxLines - 1];
      if |last| > width - 3 {
        var cut := last[..width - 3] + Ellipsis;
        assert kept[maxLines - 1] == cut;
        assert '\n' !in cut by {
          assert '\n' !in last;
          assert forall c :: c in last[..width - 3] ==> c in last;
        }
      }
      forall i | 0 <= i < |kept|
        ensures FitsLine(kept[i], width)
      {
        if i < maxLines - 1 {
          assert kept[i] == kept[..maxLines - 1][i] == lines[i];
        }
      }
    }
  }

  /** The table cell the script renders: `"\n".join(...)` of at most `maxLines`
      lines, each at most `width` characters, for every message when
      `width >= 3` and `maxLines >= 1`. */
  lemma {:induction false} TruncateMessageFits(message: string, width: int, maxLines: int)
    requires width >= 3 && maxLines >= 1
    ensures TruncateMessage(message, width, maxLines).Success?
    ensures var cell := SplitOn(TruncateMessage(message, width, maxLines).value, '\n');
      && |cell| <= maxLines
      && forall i :: 0 <= i < |cell| ==> |cell[i]| <= width
  {
    var lines := Wrap(message, width).value;
    forall i | 0 <= i < |lines|
      ensures FitsLine(lines[i], width)
    {
      WrappedLineFits(lines[i], width);
    }
    TruncateLinesFit(lines, width, maxLines);
    var kept := TruncateLines(lines, width, maxLines).value;
    var text := TruncateMessage(message, width, maxLines).value;
    assert text == Join(kept, "\n");
    if kept == [] {
      assert text == [];
    } else {
      forall i | 0 <= i < |kept|
        ensures '\n' !in kept[i]
      {
        assert FitsLine(kept[i], width);
      }
      SplitOnJoin(kept, '\n');
    }
  }

  /** A message that wraps to at most `maxLines` lines is shown in full: the cell is
      its wrapped lines joined by line breaks. */
  lemma TruncateMessageShort(message: string, width: int, maxLines: int)
    requires width >= 1
    requires |Wrap(message, width).value| <= maxLines
    ensures TruncateMessage(message, width, maxLines) == Success(Join(Wrap(message, width).value, "\n"))
  {
  }

  /** With `max_lines = 0` (a cap the script does not guard against) no line is
      dropped, yet the last one is still cut: `lines[-1]` is taken as the line to
      cut and `lines[:-1]` as the ones before it. */
  lemma ZeroCapKeepsLineCount()
    ensures TruncateLines(["ab", "cdefghij"], 5, 0) == Success(["ab", "cd..."])
  {
    assert Seqs.At(["ab", "cdefghij"], -1) == Some("cdefghij");
    assert Seqs.SliceTo(["ab", "cdefghij"], -1) == ["ab"];
    assert Seqs.SliceTo("cdefghij", 2) == "cd";
    assert "cd" + Ellipsis == "cd...";
    assert ["ab"] + ["cd..."] == ["ab", "cd..."];
  }

  /** The ellipsis is added only when the kept line is longer than `width - 3`: a
      message whose first wrapped line is short loses its second line without any
      mark. */
  lemma ShortFirstLineCutSilently()
    ensures TruncateLines(["short", "dropped"], 105, 1) == Success(["short"])
  {
  }

  /** Below a width of 3 the cut `line[:width - 3]` counts from the end: with width 2
      and a cap of one line, `"abc"` loses its last character and gains the
      ellipsis, ending longer than the width. */
  lemma NarrowWidthCutsFromEnd()
    ensures TruncateLines(["abc", "d"], 2, 1) == Success(["ab..."])
  {
    assert Seqs.At(["abc", "d"], 0) == Some("abc");
    assert Seqs.SliceTo(["abc", "d"], 0) == [];
    assert Seqs.SliceTo("abc", -1) == "ab";
    assert "ab" + Ellipsis == "ab...";
    assert [] + ["ab..."] == ["ab..."];
  }

  /** Two whitespace-free words with one space between them split back into the
      two words. */
  lemma SplitTwoWords(a: string, b: string)
    requires a != [] && NoSpace(a) && b != [] && NoSpace(b)
    ensures Split(a + " " + b) == [a, b]
  {
    SplitJoin([a, b]);
    assert Join([a, b], " ") == a + " " + b;
  }

  /** A word longer than the width first fills the current line: packing `"ab"`
      and `"cdefghij"` at width 5 gives `["ab cd", "efghi", "j"]`. */
  lemma LongWordFillsLine()
    ensures Pack(["ab", "cdefghij"], 5, []) == ["ab cd", "efghi", "j"]
  {
    assert Step(["ab", "cdefghij"], 5, []) == Progress([], ["cdefghij"], "ab");
    assert Step(["cdefghij"], 5, "ab") == Progress(["ab cd"], ["efghij"], []) by {
      assert "cdefghij"[..2] == "cd" && "cdefghij"[2..] == "efghij";
      assert "ab" + " " + "cd" == "ab cd";
      assert ["efghij"] + ["cdefghij"][1..] == ["efghij"];
    }
    assert Step(["efghij"], 5, []) == Progress(["efghi"], ["j"], []) by {
      assert "efghij"[..5] == "efghi" && "efghij"[5..] == "j";
      assert ["j"] + ["efghij"][1..] == ["j"];
    }
    assert Step(["j"], 5, []) == Progress([], [], "j");
  }

  /** textwrap wraps `"ab cdefghij"` at width 5 into `["ab cd", "efghi", "j"]`, and
      so does `Wrap`. */
  lemma LongWordWrapped()
    ensures Wrap("ab cdefghij", 5) == Success(["ab cd", "efghi", "j"])
  {
    assert Split("ab cdefghij") == ["ab", "cdefghij"] by {
      assert NoSpace("ab") && NoSpace("cdefghij");
      SplitTwoWords("ab", "cdefghij");
      assert "ab" + " " + "cdefghij" == "ab cdefghij";
    }
    LongWordFillsLine();
  }

  /** Capping `["ab cd", "efghi", "j"]` at one line of width 5 cuts the first line
      to `"ab"` and marks it. */
  lemma LongWordLinesCapped()
    ensures TruncateLines(["ab cd", "efghi", "j"], 5, 1) == Success(["ab..."])
  {
    var lines := ["ab cd", "efghi", "j"];
    assert Seqs.At(lines, 0) == Some("ab cd");
    assert Seqs.SliceTo(lines, 0) == [];
    assert Seqs.SliceTo("ab cd", 2) == "ab";
    assert "ab" + Ellipsis == "ab...";
  }

  /** A message whose first word is followed by a long word, such as a URL, keeps
      the long word's head in its one-line cell, cut and marked: at width 5 and one
      line, `"ab cdefghij"` becomes `"ab..."`. */
  lemma LongWordCellMarked()
    ensures TruncateMessage("ab cdefghij", 5, 1) == Success("ab...")
  {
    LongWordWrapped();
    LongWordLinesCapped();
    assert Join(["ab..."], "\n") == "ab...";
  }

  /** When the line is one character short of the width, the space after it fits
      but no head does, and the space stays at the end of the line: textwrap wraps
      `"abcd efghijklmn"` at width 5 into `["abcd ", "efghi", "jklmn"]`. */
  lemma SpaceKeptBeforeLongWord()
    ensures Pack(["abcd", "efghijklmn"], 5, []) == ["abcd ", "efghi", "jklmn"]
  {
    assert Step(["abcd", "efghijklmn"], 5, []) == Progress([], ["efghijklmn"], "abcd");
    assert Step(["efghijklmn"], 5, "abcd") == Progress(["abcd "], ["efghijklmn"], []) by {
      assert "abcd" + " " == "abcd ";
    }
    assert Step(["efghijklmn"], 5, []) == Progress(["efghi"], ["jklmn"], []) by {
      assert "efghijklmn"[..5] == "efghi" && "efghijklmn"[5..] == "jklmn";
      assert ["jklmn"] + ["efghijklmn"][1..] == ["jklmn"];
    }
    assert Step(["jklmn"], 5, []) == Progress([], [], "jklmn");
  }
}

=== FILE: order.dfy ===
/** Python's ordering of strings (code point by code point, a proper prefix first)
    and `sorted(...)` of a set of strings, which the script uses for its directory
    listing and for the union of file names. */
module Order {
  import Seqs

  /** `a <= b` on Python strings. */
  predicate Le(a: string, b: string)
    decreases |a|
  {
    a == [] || (b != [] && (a[0] < b[0] || (a[0] == b[0] && Le(a[1..], b[1..]))))
  }

  /** `a < b` on Python strings. */
  predicate Lt(a: string, b: string) {
    Le(a, b) && a != b
  }

  lemma {:induction false} LeRefl(a: string)
    ensures Le(a, a)
    decreases |a|
  {
    if a != [] {
      LeRefl(a[1..]);
    }
  }

  lemma {:induction false} LeTotal(a: string, b: string)
    ensures Le(a, b) || Le(b, a)
    decreases |a|
  {
    if a != [] && b != [] && a[0] == b[0] {
      LeTotal(a[1..], b[1..]);
    }
  }

  lemma {:induction false} LeAntisym(a: string, b: string)
    requires Le(a, b) && Le(b, a)
    ensures a == b
    decreases |a|
  {
    if a != [] {
      LeAntisym(a[1..], b[1..]);
      assert a == [a[0]] + a[1..];
      assert b == [b[0]] + b[1..];
    }
  }

  lemma {:induction false} LeTrans(a: string, b: string, c: string)
    requires Le(a, b) && Le(b, c)
    ensures Le(a, c)
    decreases |a|
  {
    if a != [] && a[0] == b[0] && b[0] == c[0] {
      LeTrans(a[1..], b[1..], c[1..]);
    }
  }

  lemma LtTrans(a: string, b: string, c: string)
    requires Lt(a, b) && Lt(b, c)
    ensures Lt(a, c)
  {
    LeTrans(a, b, c);
    if a == c {
      LeAntisym(a, b);
    }
  }

  /** `<` is a strict total order: of `a < b`, `a == b` and `b < a` exactly one
      holds. */
  lemma LtStrictTotal(a: string, b: string)
    ensures Lt(a, b) || a == b || Lt(b, a)
    ensures !(Lt(a, b) && Lt(b, a))
  {
    LeTotal(a, b);
    if Le(a, b) && Le(b, a) {
      LeAntisym(a, b);
    }
  }

  /** A proper prefix comes first: `"1.0" < "1.0.1"`. */
  lemma {:induction false} LtProperPrefix(a: string, b: string)
    requires b != []
    ensures Lt(a, a + b)
    decreases |a|
  {
    if a != [] {
      assert (a + b)[0] == a[0];
      assert (a + b)[1..] == a[1..] + b;
      LtProperPrefix(a[1..], b);
    }
  }

  /** Otherwise the first differing code point decides: `"1.10" < "1.9"`, since
      `'1' < '9'`. */
  lemma {:induction false} LtFirstDifference(p: string, x: char, y: char, a: string, b: string)
    requires x < y
    ensures Lt(p + [x] + a, p + [y] + b)
    decreases |p|
  {
    var s := p + [x] + a;
    var t := p + [y] + b;
    assert s[|p|] == x && t[|p|] == y;
    if p != [] {
      assert s[0] == t[0] == p[0];
      assert s[1..] == p[1..] + [x] + a;
      assert t[1..] == p[1..] + [y] + b;
      LtFirstDifference(p[1..], x, y, a, b);
    }
  }

  /** Strictly ascending: sorted and free of duplicates. */
  predicate StrictlySorted(s: seq<string>) {
    forall i, j {:trigger Lt(s[i], s[j])} :: 0 <= i < j < |s| ==> Lt(s[i], s[j])
  }

  /** `m` is the least element of `s`. */
  predicate IsLeast(m: string, s: set<string>) {
    m in s && forall y :: y in s ==> Le(m, y)
  }

  /** Every non-empty finite set of strings has a least element. */
  lemma {:induction false} LeastOf(s: set<string>) returns (m: string)
    requires s != {}
    ensures IsLeast(m, s)
    decreases |s|
  {
    var x :| x in s;
    if s == {x} {
      LeRefl(x);
      m := x;
    } else {
      var m' := LeastOf(s - {x});
      LeTotal(x, m');
      if Le(x, m') {
        forall y | y in s
          ensures Le(x, y)
        {
          if y == x {
            LeRefl(x);
          } else {
            LeTrans(x, m', y);
          }
        }
        m := x;
      } else {
        m := m';
      }
    }
  }

  lemma HasLeast(s: set<string>)
    requires s != {}
    ensures exists m :: IsLeast(m, s)
  {
    var m := LeastOf(s);
  }

  /** The least element is unique. */
  lemma LeastUnique(s: set<string>)
    ensures forall a, b :: IsLeast(a, s) && IsLeast(b, s) ==> a == b
  {
    forall a, b | IsLeast(a, s) && IsLeast(b, s)
      ensures a == b
    {
      LeAntisym(a, b);
    }
  }

  lemma ConsSorted(m: string, s: set<string>, rest: seq<string>)
    requires IsLeast(m, s)
    requires StrictlySorted(rest)
    requires forall x :: x in rest <==> x in s - {m}
    ensures StrictlySorted([m] + rest)
  {
    forall i, j | 0 <= i < j < |[m] + rest|
      ensures Lt(([m] + rest)[i], ([m] + rest)[j])
    {
      if i == 0 {
        assert ([m] + rest)[j] == rest[j - 1];
        assert rest[j - 1] in s - {m};
      } else {
        assert ([m] + rest)[i] == rest[i - 1];
        assert ([m] + rest)[j] == rest[j - 1];
      }
    }
  }

  /** `sorted(s)` for a set of strings: every element once, in ascending order. */
  function SortSet(s: set<string>): (r: seq<string>)
    ensures StrictlySorted(r)
    ensures |r| == |s|
    ensures forall x :: x in r <==> x in s
    decreases |s|
  {
    if s == {} then []
    else
      HasLeast(s);
      LeastUnique(s);
      var m :| IsLeast(m, s);
      var rest := SortSet(s - {m});
      ConsSorted(m, s, rest);
      [m] + rest
  }

  /** A strictly ascending sequence is determined by its elements: two of them with
      the same elements are equal. */
  lemma {:induction false} SortedUnique(a: seq<string>, b: seq<string>)
    requires StrictlySorted(a) && StrictlySorted(b)
    requires forall x :: x in a <==> x in b
    ensures a == b
    decreases |a|
  {
    assert a != [] ==> a[0] in b;
    assert b != [] ==> b[0] in a;
    if a != [] {
      assert a[0] == b[0] by {
        if a[0] != b[0] {
          assert b[0] in a && a[0] in b;
          var i :| 0 <= i < |a| && a[i] == b[0];
          var j :| 0 <= j < |b| && b[j] == a[0];
          assert Lt(b[0], a[0]) && Lt(a[0], b[0]);
          LeAntisym(a[0], b[0]);
        }
      }
      forall x
        ensures x in a[1..] <==> x in b[1..]
      {
        if x in a[1..] {
          var i :| 0 <= i < |a| - 1 && a[1..][i] == x;
          assert Lt(a[0], a[i + 1]);
          assert x in a && x in b;
          var k :| 0 <= k < |b| && b[k] == x;
          assert k != 0;
          assert b[1..][k - 1] == x;
        }
        if x in b[1..] {
          var j :| 0 <= j < |b| - 1 && b[1..][j] == x;
          assert Lt(b[0], b[j + 1]);
          assert x in b && x in a;
          var k :| 0 <= k < |a| && a[k] == x;
          assert k != 0;
          assert a[1..][k - 1] == x;
        }
      }
      SortedUnique(a[1..], b[1..]);
      assert a == [a[0]] + a[1..];
      assert b == [b[0]] + b[1..];
    }
  }

  /** Keeping some elements of a strictly ascending sequence keeps it strictly
      ascending. */
  lemma {:induction false} FilterSorted(p: string -> bool, s: seq<string>)
    requires StrictlySorted(s)
    ensures StrictlySorted(Seqs.Filter(p, s))
    decreases |s|
  {
    if s != [] {
      FilterSorted(p, s[1..]);
      var rest := Seqs.Filter(p, s[1..]);
      forall j | 0 <= j < |rest|
        ensures Lt(s[0], rest[j])
      {
        assert rest[j] in s[1..];
      }
    }
  }

  /** Three strings in ascending order are their set's sorted listing. */
  lemma SortThree(s: set<string>, a: string, b: string, c: string)
    requires s == {a, b, c}
    requires Lt(a, b) && Lt(b, c)
    ensures SortSet(s) == [a, b, c]
  {
    var abc := [a, b, c];
    LtTrans(a, b, c);
    assert StrictlySorted(abc) by {
      forall i, j | 0 <= i < j < 3
        ensures Lt(abc[i], abc[j])
      {
      }
    }
    var r := SortSet(s);
    assert forall x :: x in r <==> x in abc;
    SortedUnique(r, abc);
  }
}

=== FILE: report.dfy ===
/** `visualize_timeline` and `main`: everything the six pages of the PDF show, short
    of drawing them. The pages plot the timeline's series against the version axis,
    mark release versions with a vertical line, label the last points of the
    file and line counts, draw or list each core file by its last reference count,
    and end with a table of the most recent commits. */
module Report {
  import opened Results
  import opened Text
  import Seqs
  import Snapshots
  import Series
  import Exclusion
  import MessageFormat
  import Order

  /** `MAX_COMMIT_HISTORY`: the table shows at most this many commits. */
  const MaxCommitHistory: int := 60
  /** `wrap_width`: the widest a message cell may be. */
  const WrapWidth: int := 105
  /** `max_lines`: the most lines a message cell may have. */
  const MaxLines: int := 1
  const LargeFont: int := 12
  const SmallFont: int := 10
  /** Tables of fewer commits than this use the large font. */
  const FewCommits: int := 10

  const Header: seq<string> := ["Version", "Commit ID", "Message"]

  /** `visualize_timeline` raises IndexError at `core_files[-1]` when there is no
      snapshot at all. */
  datatype RenderError = EmptyHistory

  /** What `main` can stop with: a malformed snapshot, or no snapshot. */
  datatype RunError = LoadFailed(cause: Snapshots.LoadError) | RenderFailed(reason: RenderError)

  /** The content of the PDF. */
  datatype Report = Report(
    timeline: Series.Timeline,
    lastCoreFiles: int,
    lastCoreLines: int,
    lastLoadFiles: int,
    lastLoadLines: int,
    highlights: seq<nat>,
    plotted: seq<string>,
    annotations: seq<string>,
    excluded: seq<string>,
    excludedText: Option<string>,
    table: seq<seq<string>>,
    fontSize: int)

  // ---------------------------------------------------------------------------
  // release highlighting (lines 99-101, 145-147, 229-231)

  /** The positions on the version axis that get a vertical line: those whose
      version is one of the release versions, in axis order. */
  method Highlights(versions: seq<string>, releases: seq<string>) returns (marks: seq<nat>)
    ensures forall k :: 0 <= k < |marks| ==> marks[k] < |versions| && versions[marks[k]] in releases
    ensures forall i :: 0 <= i < |versions| && versions[i] in releases ==> i in marks
    ensures forall k, l :: 0 <= k < l < |marks| ==> marks[k] < marks[l]
  {
    marks := [];
    for idx := 0 to |versions|
      invariant forall k :: 0 <= k < |marks| ==> marks[k] < idx && versions[marks[k]] in releases
      invariant forall i :: 0 <= i < idx && versions[i] in releases ==> i in marks
      invariant forall k, l :: 0 <= k < l < |marks| ==> marks[k] < marks[l]
    {
      if versions[idx] in releases {
        marks := marks + [idx];
      }
    }
  }

  /** Release versions never contain a `v`, so a version that does is never
      highlighted: a snapshot named `v1.0.json` is not marked by a release list
      holding `v1.0`. */
  lemma VersionWithVNeverHighlighted(version: string, file: Option<string>)
    requires 'v' in version
    ensures version !in Snapshots.LoadReleaseVersions(file)
  {
  }

  // ---------------------------------------------------------------------------
  // commit table (lines 258-266, 279)

  /** `meta_data[-MAX_COMMIT_HISTORY:]` */
  function RecentCommits(meta: seq<Snapshots.CommitRecord>): (shown: seq<Snapshots.CommitRecord>)
    ensures |shown| == Seqs.Min(|meta|, MaxCommitHistory)
    ensures meta == meta[..|meta| - |shown|] + shown
  {
    var shown := Seqs.SliceLast(meta, MaxCommitHistory);
    assert meta == meta[..|meta| - |shown|] + meta[|meta| - |shown|..];
    shown
  }

  /** The commits shown are the most recent ones, in order, and a history of at most
      `MaxCommitHistory` commits is shown whole. */
  lemma RecentCommitsLatest(meta: seq<Snapshots.CommitRecord>)
    ensures |meta| <= MaxCommitHistory ==> RecentCommits(meta) == meta
    ensures |meta| > MaxCommitHistory ==>
      && RecentCommits(meta)[MaxCommitHistory - 1] == meta[|meta| - 1]
      && RecentCommits(meta)[0] == meta[|meta| - MaxCommitHistory]
  {
    var shown := RecentCommits(meta);
    if |meta| > MaxCommitHistory {
      assert shown == meta[|meta| - MaxCommitHistory..];
    }
  }

  /** Seventy loaded commits: the table shows the last sixty, oldest first. */
  lemma SeventyCommits(meta: seq<Snapshots.CommitRecord>)
    requires |meta| == 70
    ensures RecentCommits(meta) == meta[10..]
  {
  }

  lemma SplitOnOnePiece(s: string, c: char)
    requires |SplitOn(s, c)| == 1
    ensures s == SplitOn(s, c)[0] && c !in s
  {
    JoinSplitOn(s, c);
  }

  /** `truncate_message(message, wrap_width, max_lines)`: the message cell is a
      single line of at most `WrapWidth` characters. It is empty for a message with
      no words, the one wrapped line when there is one, and otherwise the first
      wrapped line, cut and marked as `MarksCut` says. */
  function Cell(message: string): (cell: string)
    ensures '\n' !in cell && |cell| <= WrapWidth
    ensures var w := MessageFormat.Wrap(message, WrapWidth).value;
      && (w == [] ==> cell == "")
      && (|w| == 1 ==> cell == w[0])
      && (|w| > 1 ==> MessageFormat.MarksCut(w[0], cell, WrapWidth))
  {
    MessageFormat.TruncateMessageFits(message, WrapWidth, MaxLines);
    var cell := MessageFormat.TruncateMessage(message, WrapWidth, MaxLines).value;
    SplitOnOnePiece(cell, '\n');
    var w := MessageFormat.Wrap(message, WrapWidth).value;
    assert |w| > 1 ==> |MessageFormat.TruncateLines(w, WrapWidth, MaxLines).value| == 1;
    cell
  }

  /** `table_data`: the header row, then one row per shown commit. */
  function CommitTable(meta: seq<Snapshots.CommitRecord>): (table: seq<seq<string>>)
    ensures var shown := RecentCommits(meta);
      && |table| == |shown| + 1
      && table[0] == Header
      && forall k :: 0 <= k < |shown| ==>
           && |table[k + 1]| == 3
           && table[k + 1][0] == shown[k].version
           && table[k + 1][1] == shown[k].commitId
           && table[k + 1][2] == Cell(shown[k].message)
           && '\n' !in table[k + 1][2] && |table[k + 1][2]| <= WrapWidth
  {
    [Header] + Seqs.Map((c: Snapshots.CommitRecord) => [c.version, c.commitId, Cell(c.message)], RecentCommits(meta))
  }

  /** `12 if len(meta_data) < 10 else 10`, on the shown commits. */
  function FontSize(shown: seq<Snapshots.CommitRecord>): (size: int)
    ensures size == LargeFont || size == SmallFont
    ensures size == LargeFont <==> |shown| < FewCommits
  {
    if |shown| < FewCommits then LargeFont else SmallFont
  }

  /** Cutting the history to its most recent commits never changes the font: the
      large font is used exactly when the whole history has fewer than ten
      commits. */
  lemma FontSizeOfHistory(meta: seq<Snapshots.CommitRecord>)
    ensures FontSize(RecentCommits(meta)) == LargeFont <==> |meta| < FewCommits
    ensures FontSize(RecentCommits(meta)) == SmallFont <==> |meta| >= FewCommits
  {
  }

  // ---------------------------------------------------------------------------
  // the core-references page, in terms of the snapshots

  /** The last point of each file's series is its count in the newest snapshot,
      0 where that snapshot does not list it. */
  lemma LastCounts(data: seq<Snapshots.VersionRecord>)
    requires data != []
    ensures var m := Series.RefsByFile(data);
      forall f :: f in m ==> Exclusion.LastRef(m, f) == Series.RefOrZero(data[|data| - 1], f)
  {
    var m := Series.RefsByFile(data);
    forall f | f in m
      ensures Exclusion.LastRef(m, f) == Series.RefOrZero(data[|data| - 1], f)
    {
      var series := Series.RefSeries(data, f);
      assert m[f] == series;
      assert Seqs.Last(series) == series[|data| - 1];
    }
  }

  /** A file is drawn exactly when the newest snapshot lists it with more than
      `SkipIfRefUnder` references; a file missing from it counts as 0 and is listed
      as excluded if an older snapshot had it. */
  lemma PlottedByNewest(data: seq<Snapshots.VersionRecord>)
    requires data != []
    ensures var m := Series.RefsByFile(data);
      var newest := data[|data| - 1];
      forall f :: f in Seqs.Filter(Exclusion.IsPlotted(m), Order.SortSet(Series.AllFiles(data))) <==>
        f in newest.coreRefs && newest.coreRefs[f] > Exclusion.SkipIfRefUnder
  {
    var m := Series.RefsByFile(data);
    var files := Order.SortSet(Series.AllFiles(data));
    var newest := data[|data| - 1];
    LastCounts(data);
    Exclusion.PartitionExact(files, m);
    forall f | f in newest.coreRefs
      ensures f in files
    {
      assert exists i :: 0 <= i < |data| && f in data[i].coreRefs by {
        assert f in data[|data| - 1].coreRefs;
      }
    }
  }

  // ---------------------------------------------------------------------------
  // visualize_timeline and main

  /** What the pages show for a non-empty history: the timeline, the last points of
      the count charts, a release line wherever a version is a release, exactly the
      files the newest snapshot lists above the threshold drawn (every other file of
      the history listed instead), and the commit table. */
  ghost predicate Shows(p: Report, data: seq<Snapshots.VersionRecord>, meta: seq<Snapshots.CommitRecord>, releases: seq<string>)
    requires data != []
  {
    var newest := data[|data| - 1];
    && p.timeline == Series.BuildTimeline(data)
    && p.lastCoreFiles == newest.core.second && p.lastCoreLines == newest.core.first
    && p.lastLoadFiles == newest.load.second && p.lastLoadLines == newest.load.first
    && (forall i :: i in p.highlights <==> 0 <= i < |data| && data[i].version in releases)
    && (forall k, l :: 0 <= k < l < |p.highlights| ==> p.highlights[k] < p.highlights[l])
    && p.plotted == Seqs.Filter(Exclusion.IsPlotted(p.timeline.refsByFile), p.timeline.allFiles)
    && p.excluded == Seqs.Map(Exclusion.EntryOf(p.timeline.refsByFile),
                              Seqs.Filter(Exclusion.IsExcluded(p.timeline.refsByFile), p.timeline.allFiles))
    && Order.StrictlySorted(p.plotted)
    && (forall f :: f in p.plotted <==> f in newest.coreRefs && newest.coreRefs[f] > Exclusion.SkipIfRefUnder)
    && |p.plotted| + |p.excluded| == |Series.AllFiles(data)|
    && p.annotations == Exclusion.Annotations(p.timeline.allFiles, p.timeline.refsByFile)
    && p.annotations == Seqs.Map(Exclusion.EntryOf(p.timeline.refsByFile), p.plotted)
    && p.excludedText == Exclusion.ExcludedText(p.excluded)
    && p.table == CommitTable(meta)
    && p.fontSize == FontSize(RecentCommits(meta))
    && (p.fontSize == LargeFont <==> |meta| < FewCommits)
  }

  /** `visualize_timeline(data, meta_data, highlighted_versions, ...)`: fails
      exactly when there is no snapshot; otherwise every page's content. */
  method Render(data: seq<Snapshots.VersionRecord>, meta: seq<Snapshots.CommitRecord>, releases: seq<string>)
      returns (r: Result<Report, RenderError>)
    ensures r.Failure? <==> data == []
    ensures r.Success? ==> data != [] && Shows(r.value, data, meta, releases)
  {
    if data == [] {
      return Failure(EmptyHistory);
    }
    var t := Series.BuildTimeline(data);
    var n := |data|;
    var marks := Highlights(t.versions, releases);
    forall i
      ensures i in marks <==> 0 <= i < n && data[i].version in releases
    {
      if i in marks {
        var k :| 0 <= k < |marks| && marks[k] == i;
      }
      if 0 <= i < n {
        assert t.versions[i] == data[i].version;
      }
    }
    assert t.allFiles == Order.SortSet(Series.AllFiles(data)) && t.refsByFile == Series.RefsByFile(data);
    Exclusion.TimelineHasPoints(data);
    var plotted, excluded := Exclusion.Classify(t.allFiles, t.refsByFile);
    PlottedByNewest(data);
    Order.FilterSorted(Exclusion.IsPlotted(t.refsByFile), t.allFiles);
    Exclusion.AnnotationsLabelDrawn(t.allFiles, t.refsByFile);
    Exclusion.FilterComplement(t.allFiles, t.refsByFile);
    FontSizeOfHistory(meta);
    var shown := RecentCommits(meta);
    r := Success(Report(
      t,
      t.coreFiles[n - 1], t.coreLines[n - 1], t.loadFiles[n - 1], t.loadLines[n - 1],
      marks,
      plotted, Exclusion.Annotations(t.allFiles, t.refsByFile),
      excluded, Exclusion.ExcludedText(excluded),
      CommitTable(meta), FontSize(shown)));
  }

  /** A directory without `.json` files loads to an empty history, which the report
      cannot render; with one, the history is never empty. */
  lemma NoSnapshotsNoReport(dir: Snapshots.Directory)
    requires Snapshots.LoadJsonFiles(dir).Success?
    ensures Snapshots.LoadJsonFiles(dir).value == [] <==> forall n :: n in dir ==> !EndsWith(n, Snapshots.JsonSuffix)
  {
    var names := Snapshots.JsonNames(dir);
    if names != [] {
      assert names[0] in names;
    }
  }

  /** `main()` over a directory: load the snapshots, the commits and the releases
      (from the directory's `release_versions.info`), then render. It fails when a
      snapshot is malformed or when the directory holds no snapshot. */
  method Run(dir: Snapshots.Directory) returns (r: Result<Report, RunError>)
    ensures r.Failure? <==> Snapshots.LoadJsonFiles(dir).Failure? || Snapshots.LoadJsonFiles(dir).value == []
    ensures Snapshots.LoadJsonFiles(dir).Failure? ==> r == Failure(LoadFailed(Snapshots.LoadJsonFiles(dir).error))
    ensures r.Success? ==>
      && Snapshots.LoadJsonFiles(dir).Success? && Snapshots.LoadJsonFiles(dir).value != []
      && Shows(r.value, Snapshots.LoadJsonFiles(dir).value, Snapshots.LoadMetaFiles(dir),
               Snapshots.LoadReleaseVersions(Snapshots.ReleaseText(dir)))
  {
    var loaded := Snapshots.LoadJsonFiles(dir);
    if loaded.Failure? {
      return Failure(LoadFailed(loaded.error));
    }
    var releases := Snapshots.LoadReleaseVersions(Snapshots.ReleaseText(dir));
    var rendered := Render(loaded.value, Snapshots.LoadMetaFiles(dir), releases);
    if rendered.Failure? {
      return Failure(RenderFailed(rendered.error));
    }
    return Success(rendered.value);
  }
}

=== FILE: results.dfy ===
/** Failure-carrying datatypes used throughout the model: `Option` for values that may be
    absent (a missing key, a skipped record) and `Result` for operations whose Python
    counterpart in the script raises an exception. */
module Results {

  datatype Option<+T> = None | Some(value: T)

  datatype Result<+T, +E> = Success(value: T) | Failure(error: E)
}

=== FILE: seqs.dfy ===
/** Generic sequence helpers, including Python's indexing and slicing conventions
    (negative positions count from the end, slice bounds are clamped). */
module Seqs {
  import opened Results

  function Min(a: int, b: int): int { if a <= b then a else b }

  function Max(a: int, b: int): int { if a <= b then b else a }

  /** `[f(x) for x in s]` */
  function Map<A, B>(f: A -> B, s: seq<A>): (r: seq<B>)
    ensures |r| == |s|
    ensures forall i :: 0 <= i < |s| ==> r[i] == f(s[i])
  {
    if s == [] then [] else [f(s[0])] + Map(f, s[1..])
  }

  /** Mapping distributes over concatenation. */
  lemma MapAppend<A, B>(f: A -> B, a: seq<A>, b: seq<A>)
    ensures Map(f, a + b) == Map(f, a) + Map(f, b)
  {
    assert forall i :: 0 <= i < |a| ==> (a + b)[i] == a[i];
    assert forall i :: |a| <= i < |a| + |b| ==> (a + b)[i] == b[i - |a|];
  }

  /** `[x for x in s if p(x)]` */
  function Filter<T(!new)>(p: T -> bool, s: seq<T>): (r: seq<T>)
    ensures |r| <= |s|
    ensures forall x :: x in r <==> x in s && p(x)
  {
    if s == [] then []
    else if p(s[0]) then [s[0]] + Filter(p, s[1..])
    else Filter(p, s[1..])
  }

  /** The results of `f` over `s` that are present, in order: a loop that appends
      what it can read and skips the rest. */
  function FilterMap<A, B>(f: A -> Option<B>, s: seq<A>): (r: seq<B>)
    ensures |r| <= |s|
  {
    if s == [] then []
    else
      var rest := FilterMap(f, s[1..]);
      match f(s[0])
      case None => rest
      case Some(b) => [b] + rest
  }

  /** Every kept result comes from some element, and every element's result is kept. */
  lemma {:induction false} FilterMapMembers<A, B>(f: A -> Option<B>, s: seq<A>)
    ensures forall y :: y in FilterMap(f, s) ==> exists i :: 0 <= i < |s| && f(s[i]) == Some(y)
    ensures forall i :: 0 <= i < |s| && f(s[i]).Some? ==> f(s[i]).value in FilterMap(f, s)
    decreases |s|
  {
    if s != [] {
      FilterMapMembers(f, s[1..]);
      assert forall i :: 1 <= i < |s| ==> s[i] == s[1..][i - 1];
    }
  }

  /** Results keep the order of the elements they come from: reading two runs one
      after the other gives the results of the first, then those of the second. */
  lemma {:induction false} FilterMapAppend<A, B>(f: A -> Option<B>, a: seq<A>, b: seq<A>)
    ensures FilterMap(f, a + b) == FilterMap(f, a) + FilterMap(f, b)
    decreases |a|
  {
    if a != [] {
      assert (a + b)[0] == a[0];
      assert (a + b)[1..] == a[1..] + b;
      FilterMapAppend(f, a[1..], b);
      if f(a[0]).Some? {
        assert FilterMap(f, a + b) == [f(a[0]).value] + FilterMap(f, a[1..] + b);
        assert FilterMap(f, a) == [f(a[0]).value] + FilterMap(f, a[1..]);
      }
    } else {
      assert a + b == b;
    }
  }

  /** The positions of `s` where `f` gives a result, in increasing order. */
  function Positions<A, B>(f: A -> Option<B>, s: seq<A>): (pos: seq<nat>)
    ensures forall k :: 0 <= k < |pos| ==> pos[k] < |s| && f(s[pos[k]]).Some?
    decreases |s|
  {
    if s == [] then []
    else
      var init := s[..|s| - 1];
      var before := Positions(f, init);
      assert forall i :: 0 <= i < |init| ==> init[i] == s[i];
      if f(s[|s| - 1]).Some? then before + [|s| - 1] else before
  }

  /** The positions are strictly increasing and miss no element that has a result. */
  lemma {:induction false} PositionsOrdered<A, B>(f: A -> Option<B>, s: seq<A>)
    ensures var pos := Positions(f, s);
      && (forall k, l :: 0 <= k < l < |pos| ==> pos[k] < pos[l])
      && (forall i :: 0 <= i < |s| && f(s[i]).Some? ==> i in pos)
    decreases |s|
  {
    if s != [] {
      var init := s[..|s| - 1];
      PositionsOrdered(f, init);
      assert forall i :: 0 <= i < |init| ==> init[i] == s[i];
    }
  }

  /** The k-th result of `FilterMap` is the result at the k-th position that has
      one: results come in the order of their elements, each element at most once. */
  lemma {:induction false} FilterMapAt<A, B>(f: A -> Option<B>, s: seq<A>)
    ensures |FilterMap(f, s)| == |Positions(f, s)|
    ensures forall k :: 0 <= k < |Positions(f, s)| ==>
      FilterMap(f, s)[k] == f(s[Positions(f, s)[k]]).value
    decreases |s|
  {
    if s != [] {
      var init := s[..|s| - 1];
      var x := s[|s| - 1];
      var before := FilterMap(f, init);
      var pos := Positions(f, init);
      FilterMapAt(f, init);
      assert FilterMap(f, s) == before + FilterMap(f, [x]) by {
        assert s == init + [x];
        FilterMapAppend(f, init, [x]);
      }
      assert FilterMap(f, [x]) == if f(x).Some? then [f(x).value] else [] by {
        assert [x][1..] == [];
      }
      var all := Positions(f, s);
      assert all == if f(x).Some? then pos + [|s| - 1] else pos;
      forall k | 0 <= k < |all|
        ensures FilterMap(f, s)[k] == f(s[all[k]]).value
      {
        if k < |pos| {
          assert all[k] == pos[k];
          assert s[pos[k]] == init[pos[k]];
          assert FilterMap(f, s)[k] == before[k];
        } else {
          assert all[k] == |s| - 1;
          assert FilterMap(f, s)[k] == f(x).value;
        }
      }
    }
  }

  /** When `f` gives a result everywhere, `FilterMap` keeps every one, in order. */
  lemma {:induction false} FilterMapAllPresent<A, B>(f: A -> Option<B>, s: seq<A>)
    requires forall i :: 0 <= i < |s| ==> f(s[i]).Some?
    ensures |FilterMap(f, s)| == |s|
    ensures forall i :: 0 <= i < |s| ==> FilterMap(f, s)[i] == f(s[i]).value
    decreases |s|
  {
    if s != [] {
      assert forall i :: 1 <= i < |s| ==> s[i] == s[1..][i - 1];
      FilterMapAllPresent(f, s[1..]);
    }
  }

  /** Applies `f` to each element in order and stops at the first failure, like a
      loop that lets the first exception escape. */
  function Traverse<A, B, E(==)>(f: A -> Result<B, E>, s: seq<A>): (r: Result<seq<B>, E>)
    ensures r.Success? <==> forall i :: 0 <= i < |s| ==> f(s[i]).Success?
    ensures r.Success? ==> |r.value| == |s|
    ensures r.Success? ==> forall i :: 0 <= i < |s| ==> r.value[i] == f(s[i]).value
    ensures r.Failure? ==>
      exists i :: 0 <= i < |s| && f(s[i]).Failure? && f(s[i]).error == r.error
        && forall j :: 0 <= j < i ==> f(s[j]).Success?
  {
    if s == [] then Success([])
    else
      match f(s[0])
      case Failure(e) => Failure(e)
      case Success(b) =>
        match Traverse(f, s[1..])
        case Failure(e) =>
          var i :| 0 <= i < |s| - 1 && f(s[1..][i]).Failure? && f(s[1..][i]).error == e
            && forall j :: 0 <= j < i ==> f(s[1..][j]).Success?;
          assert f(s[i + 1]).Failure? && f(s[i + 1]).error == e;
          Failure(e)
        case Success(rest) => Success([b] + rest)
  }

  /** Filtering distributes over concatenation. */
  lemma {:induction false} FilterAppend<T(!new)>(p: T -> bool, a: seq<T>, b: seq<T>)
    ensures Filter(p, a + b) == Filter(p, a) + Filter(p, b)
    decreases |a|
  {
    if a != [] {
      assert (a + b)[0] == a[0];
      assert (a + b)[1..] == a[1..] + b;
      FilterAppend(p, a[1..], b);
    } else {
      assert a + b == b;
    }
  }

  /** Python's `s[-1]`. */
  function Last<T>(s: seq<T>): T
    requires s != []
  {
    s[|s| - 1]
  }

  /** Python's `s[k]`: a negative `k` counts from the end; out of range gives `None`
      where Python raises IndexError. */
  function At<T>(s: seq<T>, k: int): (r: Option<T>)
    ensures r.Some? <==> -|s| <= k < |s|
    ensures 0 <= k < |s| ==> r == Some(s[k])
    ensures -|s| <= k < 0 ==> r == Some(s[|s| + k])
  {
    if 0 <= k < |s| then Some(s[k])
    else if -|s| <= k < 0 then Some(s[|s| + k])
    else None
  }

  /** Python's `s[:k]`. */
  function SliceTo<T>(s: seq<T>, k: int): (r: seq<T>)
    ensures |r| == (if k >= 0 then Min(k, |s|) else Max(0, |s| + k))
    ensures r == s[..|r|]
  {
    if k >= 0 then (if k <= |s| then s[..k] else s)
    else if -k <= |s| then s[..|s| + k]
    else []
  }

  /** Python's `s[-k:]` for a positive `k`. */
  function SliceLast<T>(s: seq<T>, k: int): (r: seq<T>)
    requires k > 0
    ensures |r| == Min(k, |s|)
    ensures r == s[|s| - |r|..]
  {
    if k <= |s| then s[|s| - k..] else s
  }
}

=== FILE: series.dfy ===
/** The series the charts are drawn from, as `visualize_timeline` builds them before
    it draws anything: seven per-metric series aligned with the snapshots, and the
    full outer join of the snapshots' sparse reference counts into one dense series
    per core file. */
module Series {
  import opened Snapshots
  import Order
  import Seqs

  /** `set(f for d in data for f in d["core_refs"].keys())` */
  function AllFiles(data: seq<VersionRecord>): (r: set<string>)
    ensures forall f :: f in r <==> exists i :: 0 <= i < |data| && f in data[i].coreRefs
  {
    if data == [] then {}
    else
      var rest := AllFiles(data[1..]);
      assert forall i :: 1 <= i < |data| ==> data[i] == data[1..][i - 1];
      data[0].coreRefs.Keys + rest
  }

  /** `d["core_refs"].get(f, 0)`: the reported count, and 0 only stands for a
      file the snapshot does not list (or lists with 0). */
  function RefOrZero(d: VersionRecord, f: string): (n: int)
    ensures f in d.coreRefs ==> n == d.coreRefs[f]
    ensures n != 0 ==> f in d.coreRefs
  {
    if f in d.coreRefs then d.coreRefs[f] else 0
  }

  /** `[d["core_refs"].get(f, 0) for d in data]` */
  function RefSeries(data: seq<VersionRecord>, f: string): (r: seq<int>)
    ensures |r| == |data|
    ensures forall i :: 0 <= i < |data| ==> r[i] == RefOrZero(data[i], f)
  {
    Seqs.Map(d => RefOrZero(d, f), data)
  }

  /** Everything the charts plot, one entry per version in each series. */
  datatype Timeline = Timeline(
    versions: seq<string>,
    coreLines: seq<int>,
    coreFiles: seq<int>,
    loadLines: seq<int>,
    loadFiles: seq<int>,
    coreScores: seq<Score>,
    loadScores: seq<Score>,
    dependencyWarnings: seq<int>,
    allFiles: seq<string>,
    refsByFile: map<string, seq<int>>)

  /** Every series has one entry per version. */
  predicate Aligned(t: Timeline) {
    var n := |t.versions|;
    && |t.coreLines| == n && |t.coreFiles| == n
    && |t.loadLines| == n && |t.loadFiles| == n
    && |t.coreScores| == n && |t.loadScores| == n
    && |t.dependencyWarnings| == n
    && (forall f :: f in t.refsByFile ==> |t.refsByFile[f]| == n)
  }

  /** Lines 66-79 of `visualize_timeline`. */
  function BuildTimeline(data: seq<VersionRecord>): (t: Timeline)
    ensures Aligned(t) && |t.versions| == |data|
    ensures forall i :: 0 <= i < |data| ==>
      && t.versions[i] == data[i].version
      && t.coreLines[i] == data[i].core.first && t.coreFiles[i] == data[i].core.second
      && t.loadLines[i] == data[i].load.first && t.loadFiles[i] == data[i].load.second
      && t.coreScores[i] == data[i].coreScore && t.loadScores[i] == data[i].loadScore
      && t.dependencyWarnings[i] == data[i].loadDep.second
  {
    var files := Order.SortSet(AllFiles(data));
    Timeline(
      Seqs.Map((d: VersionRecord) => d.version, data),
      Seqs.Map((d: VersionRecord) => d.core.first, data),
      Seqs.Map((d: VersionRecord) => d.core.second, data),
      Seqs.Map((d: VersionRecord) => d.load.first, data),
      Seqs.Map((d: VersionRecord) => d.load.second, data),
      Seqs.Map((d: VersionRecord) => d.coreScore, data),
      Seqs.Map((d: VersionRecord) => d.loadScore, data),
      Seqs.Map((d: VersionRecord) => d.loadDep.second, data),
      files,
      RefsByFile(data))
  }

  /** `core_refs_by_file`: the dense series of every file some snapshot lists. */
  function RefsByFile(data: seq<VersionRecord>): (m: map<string, seq<int>>)
    ensures forall f :: f in m <==> f in AllFiles(data)
    ensures forall f :: f in m ==> |m[f]| == |data|
  {
    map f | f in AllFiles(data) :: RefSeries(data, f)
  }

  /** The file axis is the union of the snapshots' core files, each once, in
      ascending order, and there is one dense series per file on it. */
  lemma TimelineFiles(data: seq<VersionRecord>)
    ensures var t := BuildTimeline(data);
      && Order.StrictlySorted(t.allFiles)
      && (forall f :: f in t.allFiles <==> exists i :: 0 <= i < |data| && f in data[i].coreRefs)
      && (forall f :: f in t.refsByFile <==> f in t.allFiles)
  {
  }

  /** The dense series hold every sparse count where it was reported, and 0 at
      every version whose snapshot does not list the file. */
  lemma DenseMatchesSparse(data: seq<VersionRecord>)
    ensures var t := BuildTimeline(data);
      && (forall i, f :: 0 <= i < |data| && f in data[i].coreRefs ==>
            f in t.refsByFile && t.refsByFile[f][i] == data[i].coreRefs[f])
      && (forall i, f :: 0 <= i < |data| && f in t.refsByFile && f !in data[i].coreRefs ==>
            t.refsByFile[f][i] == 0)
  {
  }

  /** A non-zero entry in a dense series is a count some snapshot reported. */
  lemma NonZeroWasReported(data: seq<VersionRecord>, f: string, i: int)
    requires 0 <= i < |data|
    ensures var m := RefsByFile(data);
      f in m && m[f][i] != 0 ==> f in data[i].coreRefs && data[i].coreRefs[f] == m[f][i]
  {
  }

  /** A file's series is zeros at the versions before it first appears. */
  function Zeros(n: nat): (r: seq<int>)
    ensures |r| == n && forall i :: 0 <= i < n ==> r[i] == 0
  {
    seq(n, _ => 0)
  }

  lemma AllFilesAppend(data: seq<VersionRecord>, d: VersionRecord)
    ensures AllFiles(data + [d]) == AllFiles(data) + d.coreRefs.Keys
  {
    var both := data + [d];
    forall f
      ensures f in AllFiles(both) <==> f in AllFiles(data) || f in d.coreRefs
    {
      if f in AllFiles(both) {
        var i :| 0 <= i < |both| && f in both[i].coreRefs;
        if i < |data| {
          assert both[i] == data[i];
        }
      }
      if f in AllFiles(data) {
        var i :| 0 <= i < |data| && f in data[i].coreRefs;
        assert both[i] == data[i];
      }
      if f in d.coreRefs {
        assert both[|data|] == d;
      }
    }
  }

  /** A file no snapshot lists has an all-zero series. */
  lemma RefSeriesAbsent(data: seq<VersionRecord>, f: string)
    requires f !in AllFiles(data)
    ensures RefSeries(data, f) == Zeros(|data|)
  {
    forall i | 0 <= i < |data|
      ensures RefSeries(data, f)[i] == 0
    {
      assert f !in data[i].coreRefs;
    }
  }

  /** Taking one more snapshot appends its metrics to the seven metric series and
      its version id to the version axis. */
  lemma AppendSnapshotSeries(data: seq<VersionRecord>, d: VersionRecord)
    ensures var before := BuildTimeline(data);
      var after := BuildTimeline(data + [d]);
      && after.versions == before.versions + [d.version]
      && after.coreLines == before.coreLines + [d.core.first]
      && after.coreFiles == before.coreFiles + [d.core.second]
      && after.loadLines == before.loadLines + [d.load.first]
      && after.loadFiles == before.loadFiles + [d.load.second]
      && after.coreScores == before.coreScores + [d.coreScore]
      && after.loadScores == before.loadScores + [d.loadScore]
      && after.dependencyWarnings == before.dependencyWarnings + [d.loadDep.second]
  {
  }

  /** Taking one more snapshot appends one point to every file's series: a file
      seen before keeps its history, a file seen for the first time starts with a 0
      for every earlier version. */
  lemma AppendSnapshotRefs(data: seq<VersionRecord>, d: VersionRecord)
    ensures var before := RefsByFile(data);
      var after := RefsByFile(data + [d]);
      forall f :: f in after ==>
        after[f] == (if f in before then before[f] else Zeros(|data|)) + [RefOrZero(d, f)]
  {
    forall f | f in AllFiles(data + [d])
      ensures RefSeries(data + [d], f) ==
        (if f in AllFiles(data) then RefSeries(data, f) else Zeros(|data|)) + [RefOrZero(d, f)]
    {
      RefSeriesAppend(data, d, f);
      if f !in AllFiles(data) {
        RefSeriesAbsent(data, f);
      }
    }
  }

  lemma RefSeriesAppend(data: seq<VersionRecord>, d: VersionRecord, f: string)
    ensures RefSeries(data + [d], f) == RefSeries(data, f) + [RefOrZero(d, f)]
  {
    var both := data + [d];
    forall i | 0 <= i < |data|
      ensures RefSeries(both, f)[i] == RefSeries(data, f)[i]
    {
      assert both[i] == data[i];
    }
    assert both[|data|] == d;
  }

  /** A history of two snapshots over three distinct paths `a`, `b`, `c`: the
      first lists `a` 5 and `b` 1, the second `a` 8 and `c` 4. */
  predicate TwoVersionData(data: seq<VersionRecord>, a: string, b: string, c: string) {
    && |data| == 2
    && data[0].coreRefs == map[a := 5, b := 1]
    && data[1].coreRefs == map[a := 8, c := 4]
    && a != b && b != c && a != c
  }

  lemma ExampleFiles(data: seq<VersionRecord>, a: string, b: string, c: string)
    requires TwoVersionData(data, a, b, c)
    ensures AllFiles(data) == {a, b, c}
  {
    assert data == [] + [data[0]] + [data[1]];
    AllFilesAppend([], data[0]);
    AllFilesAppend([data[0]], data[1]);
  }

  lemma ExampleSeries(data: seq<VersionRecord>, a: string, b: string, c: string)
    requires TwoVersionData(data, a, b, c)
    ensures RefSeries(data, a) == [5, 8]
    ensures RefSeries(data, b) == [1, 0]
    ensures RefSeries(data, c) == [0, 4]
  {
    assert RefOrZero(data[0], a) == 5 && RefOrZero(data[1], a) == 8;
    assert RefOrZero(data[0], b) == 1 && RefOrZero(data[1], b) == 0;
    assert RefOrZero(data[0], c) == 0 && RefOrZero(data[1], c) == 4;
  }

  /** The union is listed in ascending order whatever order the snapshots name
      the files in. */
  lemma ExampleSortedFiles(data: seq<VersionRecord>, a: string, b: string, c: string)
    requires TwoVersionData(data, a, b, c)
    requires Order.Lt(a, b) && Order.Lt(b, c)
    ensures Order.SortSet(AllFiles(data)) == [a, b, c]
  {
    ExampleFiles(data, a, b, c);
    Order.SortThree(AllFiles(data), a, b, c);
  }

  lemma ExampleAxis(data: seq<VersionRecord>, a: string, b: string, c: string)
    requires TwoVersionData(data, a, b, c)
    requires Order.Lt(a, b) && Order.Lt(b, c)
    ensures BuildTimeline(data).allFiles == [a, b, c]
  {
    ExampleSortedFiles(data, a, b, c);
  }

  lemma ExampleDense(data: seq<VersionRecord>, a: string, b: string, c: string)
    requires TwoVersionData(data, a, b, c)
    ensures var m := RefsByFile(data);
      m.Keys == {a, b, c} && m[a] == [5, 8] && m[b] == [1, 0] && m[c] == [0, 4]
  {
    ExampleFiles(data, a, b, c);
    ExampleSeries(data, a, b, c);
  }

  /** Two snapshots listing {a: 5, b: 1} and {a: 8, c: 4}: the union is [a, b, c]
      in order; `a` has [5, 8], `b` [1, 0] and `c` [0, 4]. */
  lemma TwoVersionExample(data: seq<VersionRecord>, a: string, b: string, c: string)
    requires TwoVersionData(data, a, b, c)
    requires Order.Lt(a, b) && Order.Lt(b, c)
    ensures var t := BuildTimeline(data);
      && t.allFiles == [a, b, c]
      && t.refsByFile.Keys == {a, b, c}
      && t.refsByFile[a] == [5, 8] && t.refsByFile[b] == [1, 0] && t.refsByFile[c] == [0, 4]
  {
    ExampleAxis(data, a, b, c);
    ExampleDense(data, a, b, c);
    assert BuildTimeline(data).refsByFile == RefsByFile(data);
  }
}

=== FILE: snapshots.dfy ===
/** The three loaders of the report script, over an in-memory directory:
    `load_json_files` (one VersionRecord per `.json` snapshot, fatal on a malformed
    one), `load_meta_files` (one CommitRecord per well-formed `.meta` file, others
    skipped) and `load_release_versions` (the release tags, or none at all when the
    file cannot be read). */
module Snapshots {
  import opened Results
  import opened Text
  import Seqs
  import Order

  /** A pylint score as written in the snapshot, carried to the charts unchanged. */
  datatype Score = Score(literal: string)

  /** A two-number list from the snapshot summary. `core` and `load` hold
      (lines of code, file count); of `load_dep` only the second number, the
      dependency warning count, is used. */
  datatype Pair = Pair(first: int, second: int)

  /** The summary keys the report reads. The model takes every summary to have
      them, with lists long enough: the script itself does not check this, and a
      snapshot without one loads fine and only makes `visualize_timeline` raise a
      KeyError or IndexError when it reads the lists. */
  datatype Summary = Summary(core: Pair, load: Pair, coreScore: Score, loadScore: Score, loadDep: Pair)

  /** What `json.load` gives for a snapshot, reduced to the two keys the script
      reads (`None` when the key is missing). `files` maps a path to its list of
      numbers, whose element 1 is the path's reference count. */
  datatype Snapshot = Snapshot(summary: Option<Summary>, files: Option<map<string, seq<int>>>)

  /** One directory entry: the text `f.read()` gives and the outcome of parsing the
      same bytes as JSON (`None` when they are not valid JSON). */
  datatype FileContent = FileContent(text: string, json: Option<Snapshot>)

  /** A directory listing: file names are unique, so a map from name to content. */
  type Directory = map<string, FileContent>

  /** One version's summary, extended with its version id and its core reference
      counts, as `load_json_files` appends it. */
  datatype VersionRecord = VersionRecord(
    version: string,
    core: Pair,
    load: Pair,
    coreScore: Score,
    loadScore: Score,
    loadDep: Pair,
    coreRefs: map<string, int>)

  datatype CommitRecord = CommitRecord(version: string, commitId: string, message: string)

  /** The exceptions `load_json_files` lets escape: json.load's decode error, a
      KeyError for `summary` or `files`, an IndexError for a reference list too
      short to have element 1. The `file` field is the model's own bookkeeping
      of which snapshot failed; the Python exceptions do not carry it. */
  datatype LoadError =
    | NotJson(file: string)
    | MissingSummary(file: string)
    | MissingFiles(file: string)
    | ShortFileEntry(file: string)

  const JsonSuffix: string := ".json"
  const MetaSuffix: string := ".meta"
  /** Paths containing this marker belong to load modules and are not core files. */
  const LoadModuleMarker: string := "LM_"
  const CommitSeparator: string := ": "
  const VersionPrefix: string := "v"

  /** `"LM_" not in f`: the path has no occurrence of the marker. */
  predicate IsCoreFile(path: string)
    ensures IsCoreFile(path) <==> forall j :: !OccursAt(path, LoadModuleMarker, j)
  {
    !Contains(path, LoadModuleMarker)
  }

  /** `{f: l[1] for f, l in files.items() if "LM_" not in f}`; `None` where `l[1]`
      raises, which happens only for core paths since the filter runs first. */
  function CoreRefs(files: map<string, seq<int>>): (r: Option<map<string, int>>)
    ensures r.Some? <==> forall f :: f in files && IsCoreFile(f) ==> |files[f]| >= 2
    ensures r.Some? ==> forall f :: f in r.value <==> f in files && IsCoreFile(f)
    ensures r.Some? ==> forall f :: f in r.value ==> r.value[f] == files[f][1]
  {
    if forall f :: f in files && IsCoreFile(f) ==> |files[f]| >= 2 then
      Some(map f | f in files && IsCoreFile(f) :: files[f][1])
    else
      None
  }

  /** The body of `load_json_files`' loop for one file `name`. */
  function ParseSnapshot(name: string, content: FileContent): (r: Result<VersionRecord, LoadError>)
    ensures content.json.None? ==> r == Failure(NotJson(name))
    ensures r.Failure? ==> r.error.file == name
    ensures r.Success? <==>
      && content.json.Some?
      && content.json.value.summary.Some?
      && content.json.value.files.Some?
      && CoreRefs(content.json.value.files.value).Some?
    ensures r.Success? ==>
      && r.value.version == RemoveAll(name, JsonSuffix)
      && r.value.coreRefs == CoreRefs(content.json.value.files.value).value
      && var s := content.json.value.summary.value;
         r.value.core == s.core && r.value.load == s.load && r.value.loadDep == s.loadDep
         && r.value.coreScore == s.coreScore && r.value.loadScore == s.loadScore
  {
    match content.json
    case None => Failure(NotJson(name))
    case Some(doc) =>
      match doc.summary
      case None => Failure(MissingSummary(name))
      case Some(s) =>
        match doc.files
        case None => Failure(MissingFiles(name))
        case Some(files) =>
          match CoreRefs(files)
          case None => Failure(ShortFileEntry(name))
          case Some(refs) =>
            Success(VersionRecord(RemoveAll(name, JsonSuffix), s.core, s.load, s.coreScore, s.loadScore, s.loadDep, refs))
  }

  /** `sorted(os.listdir(folder))` */
  function Listing(dir: Directory): (names: seq<string>)
    ensures forall n :: n in names <==> n in dir
  {
    Order.SortSet(dir.Keys)
  }

  /** The names a loader opens, in the order it opens them: the directory's
      listing, keeping the names that end with `suffix`. */
  function Named(dir: Directory, suffix: string): (names: seq<string>)
    ensures forall n :: n in names <==> n in dir && EndsWith(n, suffix)
  {
    Seqs.Filter(n => EndsWith(n, suffix), Listing(dir))
  }

  /** Files are opened in strictly ascending name order, each once. */
  lemma NamedSorted(dir: Directory, suffix: string)
    ensures Order.StrictlySorted(Named(dir, suffix))
  {
    Order.FilterSorted(n => EndsWith(n, suffix), Order.SortSet(dir.Keys));
  }

  /** The names `load_json_files` opens. */
  function JsonNames(dir: Directory): (names: seq<string>)
    ensures forall n :: n in names <==> n in dir && EndsWith(n, JsonSuffix)
    ensures Order.StrictlySorted(names)
  {
    NamedSorted(dir, JsonSuffix);
    Named(dir, JsonSuffix)
  }

  /** Opening and parsing the listed file `name`. Every listed name is in the
      directory; the other branch is never taken. */
  function LoadSnapshot(dir: Directory, name: string): Result<VersionRecord, LoadError> {
    if name in dir then ParseSnapshot(name, dir[name]) else Failure(NotJson(name))
  }

  /** `load_json_files(folder)`: the snapshots in ascending name order, stopping at
      the first malformed one. */
  function LoadJsonFiles(dir: Directory): (r: Result<seq<VersionRecord>, LoadError>)
    ensures r.Success? ==> |r.value| == |JsonNames(dir)|
  {
    Seqs.Traverse(SnapshotReader(dir), JsonNames(dir))
  }

  /** Reading one listed `.json` name. */
  function SnapshotReader(dir: Directory): string -> Result<VersionRecord, LoadError> {
    n => LoadSnapshot(dir, n)
  }

  /** Loading succeeds exactly when every `.json` file in the directory is a
      well-formed snapshot. */
  lemma LoadJsonFilesSucceeds(dir: Directory)
    ensures LoadJsonFiles(dir).Success? <==>
      forall n :: n in dir && EndsWith(n, JsonSuffix) ==> ParseSnapshot(n, dir[n]).Success?
  {
    var names := JsonNames(dir);
    if LoadJsonFiles(dir).Success? {
      forall n | n in dir && EndsWith(n, JsonSuffix)
        ensures ParseSnapshot(n, dir[n]).Success?
      {
        var i :| 0 <= i < |names| && names[i] == n;
        assert LoadSnapshot(dir, names[i]).Success?;
      }
    } else {
      var i :| 0 <= i < |names| && LoadSnapshot(dir, names[i]).Failure?;
      assert names[i] in names;
    }
  }

  /** On success the i-th record is that of the i-th `.json` name: its version id is
      the name without `.json`, its reference counts are exactly those of the
      snapshot's core files. */
  lemma LoadJsonFilesRecords(dir: Directory)
    requires LoadJsonFiles(dir).Success?
    ensures var records := LoadJsonFiles(dir).value;
      forall i :: 0 <= i < |records| ==>
        var name := JsonNames(dir)[i];
        var files := dir[name].json.value.files.value;
        && records[i] == ParseSnapshot(name, dir[name]).value
        && records[i].version == RemoveAll(name, JsonSuffix)
        && (forall f :: f in records[i].coreRefs <==> f in files && IsCoreFile(f))
        && (forall f :: f in records[i].coreRefs ==> records[i].coreRefs[f] == files[f][1])
  {
    var names := JsonNames(dir);
    forall i | 0 <= i < |names|
      ensures names[i] in dir && LoadSnapshot(dir, names[i]).Success?
    {
      assert names[i] in names;
    }
  }

  /** On failure the error is that of the first malformed file in name order. */
  lemma LoadJsonFilesFirstError(dir: Directory)
    requires LoadJsonFiles(dir).Failure?
    ensures var names := JsonNames(dir);
      exists i {:trigger ParseSnapshot(names[i], dir[names[i]])} :: 0 <= i < |names| && names[i] in dir
        && ParseSnapshot(names[i], dir[names[i]]) == Failure(LoadJsonFiles(dir).error)
        && forall j :: 0 <= j < i ==> names[j] in dir && ParseSnapshot(names[j], dir[names[j]]).Success?
  {
    var names := JsonNames(dir);
    var read := SnapshotReader(dir);
    var e := LoadJsonFiles(dir).error;
    assert Seqs.Traverse(read, names).Failure? && Seqs.Traverse(read, names).error == e;
    var i :| 0 <= i < |names| && read(names[i]).Failure? && read(names[i]).error == e
      && forall j :: 0 <= j < i ==> read(names[j]).Success?;
    assert names[i] in dir && ParseSnapshot(names[i], dir[names[i]]) == Failure(e) by {
      assert names[i] in names;
    }
    assert forall j :: 0 <= j < i ==> names[j] in dir && ParseSnapshot(names[j], dir[names[j]]).Success? by {
      forall j | 0 <= j < i
        ensures names[j] in dir && ParseSnapshot(names[j], dir[names[j]]).Success?
      {
        assert names[j] in names;
        assert read(names[j]).Success?;
      }
    }
  }


  /** A snapshot named `<stem>.json` gets the version id `<stem>` when the stem does
      not itself contain `.json`. */
  lemma VersionOfJsonName(stem: string)
    requires forall i :: !OccursAt(stem, JsonSuffix, i)
    ensures RemoveAll(stem + JsonSuffix, JsonSuffix) == stem
  {
    RemoveAllSuffix(stem, JsonSuffix);
  }

  /** `replace` removes every occurrence, not just the suffix. */
  lemma VersionDropsInnerSuffix()
    ensures RemoveAll("a.json.json", JsonSuffix) == "a"
  {
    assert "a.json.json"[1..] == ".json.json";
    assert ".json.json"[5..] == ".json";
  }

  // ---------------------------------------------------------------------------
  // load_meta_files

  /** The body of `load_meta_files`' loop for one file: the stripped content split
      at the first `": "`, or nothing when it has no such separator. */
  function ParseMeta(name: string, text: string): (r: Option<CommitRecord>)
    ensures r.Some? <==> Contains(Strip(text), CommitSeparator)
    ensures r.Some? ==>
      && r.value.version == RemoveAll(name, MetaSuffix)
      && r.value.commitId + CommitSeparator + r.value.message == Strip(text)
      && !Contains(r.value.commitId, CommitSeparator)
  {
    var content := Strip(text);
    match IndexOf(content, CommitSeparator)
    case None => None
    case Some(i) =>
      BeforeFirst(content, CommitSeparator, i);
      Some(CommitRecord(RemoveAll(name, MetaSuffix), content[..i], content[i + |CommitSeparator|..]))
  }

  lemma SeparatorSelfAvoiding()
    ensures SelfAvoiding(CommitSeparator)
  {
    assert CommitSeparator[1] != CommitSeparator[0];
  }

  /** Writing `<commit>: <message>` and parsing it gives the commit id and message
      back, when the id has no `": "` and the text has no surrounding whitespace. */
  lemma MetaRoundTrip(name: string, commitId: string, message: string)
    requires forall i :: !OccursAt(commitId, CommitSeparator, i)
    requires commitId == [] || !IsSpace(commitId[0])
    requires message != [] && !IsSpace(message[|message| - 1])
    ensures ParseMeta(name, commitId + CommitSeparator + message)
         == Some(CommitRecord(RemoveAll(name, MetaSuffix), commitId, message))
  {
    var content := commitId + CommitSeparator + message;
    assert content[0] == (if commitId == [] then ':' else commitId[0]);
    assert content[|content| - 1] == message[|message| - 1];
    StripUnchanged(content);
    SeparatorSelfAvoiding();
    SplitAtFirst(commitId, CommitSeparator, message);
  }

  /** A file without a colon has no separator and is skipped, not an error. */
  lemma MetaWithoutColonSkipped(name: string, text: string)
    requires ':' !in text
    ensures ParseMeta(name, text) == None
  {
    StripKeepsAbsent(text, ':');
    AbsentFirstChar(Strip(text), CommitSeparator);
  }

  /** Opening and parsing the listed file `name`; `None` when it is skipped. */
  function LoadMeta(dir: Directory, name: string): Option<CommitRecord> {
    if name in dir then ParseMeta(name, dir[name].text) else None
  }

  /** The names `load_meta_files` opens. */
  function MetaNames(dir: Directory): (names: seq<string>)
    ensures forall n :: n in names <==> n in dir && EndsWith(n, MetaSuffix)
    ensures Order.StrictlySorted(names)
  {
    NamedSorted(dir, MetaSuffix);
    Named(dir, MetaSuffix)
  }

  /** `load_meta_files(folder)`: the records of the well-formed `.meta` files in
      ascending name order; a file without separator contributes nothing. */
  function LoadMetaFiles(dir: Directory): (r: seq<CommitRecord>)
    ensures |r| <= |MetaNames(dir)|
  {
    Seqs.FilterMap(MetaReader(dir), MetaNames(dir))
  }

  /** Reading one listed `.meta` name. */
  function MetaReader(dir: Directory): string -> Option<CommitRecord> {
    n => LoadMeta(dir, n)
  }

  /** The records come in ascending file-name order, one per well-formed file: the
      k-th record is the parse of the k-th well-formed `.meta` name. */
  lemma LoadMetaFilesInOrder(dir: Directory)
    ensures var names := MetaNames(dir);
      var pos := Seqs.Positions(MetaReader(dir), names);
      var r := LoadMetaFiles(dir);
      && |r| == |pos|
      && (forall k :: 0 <= k < |r| ==>
            names[pos[k]] in dir && r[k] == ParseMeta(names[pos[k]], dir[names[pos[k]]].text).value)
      && (forall k, l :: 0 <= k < l < |r| ==> Order.Lt(names[pos[k]], names[pos[l]]))
      && (forall i :: 0 <= i < |names| && names[i] in dir && ParseMeta(names[i], dir[names[i]].text).Some? ==> i in pos)
  {
    var names := MetaNames(dir);
    var pos := Seqs.Positions(MetaReader(dir), names);
    Seqs.FilterMapAt(MetaReader(dir), names);
    Seqs.PositionsOrdered(MetaReader(dir), names);
    NamedSorted(dir, MetaSuffix);
    forall k | 0 <= k < |pos|
      ensures names[pos[k]] in dir
    {
      assert names[pos[k]] in names;
    }
    forall k, l | 0 <= k < l < |pos|
      ensures Order.Lt(names[pos[k]], names[pos[l]])
    {
      assert pos[k] < pos[l];
    }
  }

  /** When every `.meta` file is well formed, the i-th record is the parse of the
      i-th `.meta` name. */
  lemma LoadMetaFilesAllWellFormed(dir: Directory)
    requires forall n :: n in dir && EndsWith(n, MetaSuffix) ==> ParseMeta(n, dir[n].text).Some?
    ensures var names := MetaNames(dir);
      var r := LoadMetaFiles(dir);
      && |r| == |names|
      && forall i :: 0 <= i < |names| ==> names[i] in dir && r[i] == ParseMeta(names[i], dir[names[i]].text).value
  {
    var names := MetaNames(dir);
    forall i | 0 <= i < |names|
      ensures names[i] in dir && MetaReader(dir)(names[i]).Some?
    {
      assert names[i] in names;
    }
    Seqs.FilterMapAllPresent(MetaReader(dir), names);
  }

  /** Every loaded record comes from some `.meta` file of the directory. */
  lemma LoadMetaFilesSound(dir: Directory)
    ensures forall c :: c in LoadMetaFiles(dir) ==>
      exists n :: n in dir && EndsWith(n, MetaSuffix) && ParseMeta(n, dir[n].text) == Some(c)
  {
    var names := MetaNames(dir);
    Seqs.FilterMapMembers(MetaReader(dir), names);
    forall c | c in LoadMetaFiles(dir)
      ensures exists n :: n in dir && EndsWith(n, MetaSuffix) && ParseMeta(n, dir[n].text) == Some(c)
    {
      var i :| 0 <= i < |names| && MetaReader(dir)(names[i]) == Some(c);
      assert names[i] in names;
    }
  }

  /** Every well-formed `.meta` file of the directory contributes its record. */
  lemma LoadMetaFilesComplete(dir: Directory)
    ensures forall n :: n in dir && EndsWith(n, MetaSuffix) && ParseMeta(n, dir[n].text).Some? ==>
      ParseMeta(n, dir[n].text).value in LoadMetaFiles(dir)
  {
    var names := MetaNames(dir);
    Seqs.FilterMapMembers(MetaReader(dir), names);
    forall n | n in dir && EndsWith(n, MetaSuffix) && ParseMeta(n, dir[n].text).Some?
      ensures ParseMeta(n, dir[n].text).value in LoadMetaFiles(dir)
    {
      var i :| 0 <= i < |names| && names[i] == n;
      assert LoadMeta(dir, names[i]).Some?;
    }
  }

  // ---------------------------------------------------------------------------
  // load_release_versions

  const ReleaseFileName: string := "release_versions.info"

  /** The text of the folder's `release_versions.info`, `None` when the folder has
      no such file. */
  function ReleaseText(dir: Directory): Option<string> {
    if ReleaseFileName in dir then Some(dir[ReleaseFileName].text) else None
  }

  /** One release token as line 59 cleans it: `t.replace("v", "").strip()`. */
  function CleanRelease(t: string): string {
    Strip(RemoveAll(t, VersionPrefix))
  }

  /** A whitespace-free token only loses its `v`s: the `strip` changes nothing. */
  lemma CleanReleaseOfToken(t: string)
    requires NoSpace(t)
    ensures CleanRelease(t) == RemoveAll(t, VersionPrefix)
    ensures 'v' !in CleanRelease(t) && NoSpace(CleanRelease(t))
  {
    var cut := RemoveAll(t, VersionPrefix);
    RemoveAllNoSpace(t, VersionPrefix);
    RemoveAllChar(t, 'v');
    StripUnchanged(cut);
  }

  /** `load_release_versions(folder)`, given the content of `release_versions.info`
      (`None` when opening or reading it raises): the whitespace-separated tokens,
      each with every `v` removed. Any failure gives the empty list. */
  function LoadReleaseVersions(file: Option<string>): (r: seq<string>)
    ensures file.None? ==> r == []
    ensures file.Some? ==> |r| == |Split(file.value)|
    ensures file.Some? ==> forall i :: 0 <= i < |r| ==> r[i] == RemoveAll(Split(file.value)[i], VersionPrefix)
    ensures forall i :: 0 <= i < |r| ==> 'v' !in r[i] && NoSpace(r[i])
  {
    match file
    case None => []
    case Some(text) =>
      var tokens := Split(Strip(text));
      SplitIgnoresStrip(text);
      var r := Seqs.Map(CleanRelease, tokens);
      assert forall i :: 0 <= i < |r| ==> r[i] == RemoveAll(tokens[i], VersionPrefix) && 'v' !in r[i] && NoSpace(r[i]) by {
        forall i | 0 <= i < |r|
          ensures r[i] == RemoveAll(tokens[i], VersionPrefix) && 'v' !in r[i] && NoSpace(r[i])
        {
          CleanReleaseOfToken(tokens[i]);
        }
      }
      r
  }
}

=== FILE: text.dfy ===
/** The Python string operations the report script calls, each with the behaviour
    of CPython's `str` methods: `strip` and `split()` (both over `isspace`),
    `split(": ", 1)`, `"\n".join`, `in`, `replace(pat, "")`, `endswith` and
    `f"{n}"` for integers. Two functions are the model's own helpers, not calls of
    the script: `SplitOn` splits at every occurrence of one character, to read a
    joined text back line by line, and `IndexOf` finds the first occurrence of a
    pattern, on which `in` and `split(sep, 1)` are built. */
module Text {
  import opened Results

  /** `c.isspace()`: the characters CPython treats as whitespace. */
  predicate IsSpace(c: char) {
    || ('\t' <= c <= '\r')
    || ('\U{1C}' <= c <= ' ')
    || c == '\U{85}' || c == '\U{A0}' || c == '\U{1680}'
    || ('\U{2000}' <= c <= '\U{200A}')
    || c == '\U{2028}' || c == '\U{2029}' || c == '\U{202F}' || c == '\U{205F}' || c == '\U{3000}'
  }

  predicate NoSpace(s: string) {
    forall i :: 0 <= i < |s| ==> !IsSpace(s[i])
  }

  predicate AllSpace(s: string) {
    forall i :: 0 <= i < |s| ==> IsSpace(s[i])
  }

  /** The non-whitespace characters of `s`, in order. */
  function NonSpace(s: string): (r: string)
    ensures NoSpace(r)
    ensures |r| <= |s|
  {
    if s == [] then [] else (if IsSpace(s[0]) then [] else [s[0]]) + NonSpace(s[1..])
  }

  lemma {:induction false} NonSpaceAppend(a: string, b: string)
    ensures NonSpace(a + b) == NonSpace(a) + NonSpace(b)
    decreases |a|
  {
    if a != [] {
      assert (a + b)[1..] == a[1..] + b;
      NonSpaceAppend(a[1..], b);
    } else {
      assert a + b == b;
    }
  }

  lemma {:induction false} NonSpaceOfNoSpace(s: string)
    requires NoSpace(s)
    ensures NonSpace(s) == s
    decreases |s|
  {
    if s != [] {
      NonSpaceOfNoSpace(s[1..]);
    }
  }

  // ---------------------------------------------------------------------------
  // strip

  /** The number of whitespace characters `s` starts with. */
  function LeadingSpace(s: string): (n: nat)
    ensures n <= |s|
    ensures forall i :: 0 <= i < n ==> IsSpace(s[i])
    ensures n == |s| || !IsSpace(s[n])
  {
    if s != [] && IsSpace(s[0]) then 1 + LeadingSpace(s[1..]) else 0
  }

  /** The number of whitespace characters `s` ends with. */
  function TrailingSpace(s: string): (n: nat)
    ensures n <= |s|
    ensures forall i :: |s| - n <= i < |s| ==> IsSpace(s[i])
    ensures n == |s| || !IsSpace(s[|s| - n - 1])
  {
    if s != [] && IsSpace(s[|s| - 1]) then 1 + TrailingSpace(s[..|s| - 1]) else 0
  }

  /** `s.lstrip()` */
  function TrimStart(s: string): (r: string)
    ensures |r| <= |s| && r == s[|s| - |r|..]
    ensures AllSpace(s[..|s| - |r|])
    ensures r == [] || !IsSpace(r[0])
  {
    s[LeadingSpace(s)..]
  }

  /** `s.rstrip()` */
  function TrimEnd(s: string): (r: string)
    ensures |r| <= |s| && r == s[..|r|]
    ensures AllSpace(s[|r|..])
    ensures r == [] || !IsSpace(r[|r| - 1])
  {
    s[..|s| - TrailingSpace(s)]
  }

  /** `s.strip()`: the result neither starts nor ends with whitespace. */
  function Strip(s: string): (r: string)
    ensures |r| <= |s|
    ensures r == [] || (!IsSpace(r[0]) && !IsSpace(r[|r| - 1]))
  {
    TrimEnd(TrimStart(s))
  }

  /** `s.strip()` removes only whitespace, and only around the result: `s` is the
      result with whitespace before and after it. */
  lemma StripSurroundings(s: string)
    ensures var r := Strip(s);
      exists i :: 0 <= i <= |s| - |r| && s[i..i + |r|] == r && AllSpace(s[..i]) && AllSpace(s[i + |r|..])
  {
    var i := LeadingSpace(s);
    var t := TrimStart(s);
    var r := TrimEnd(t);
    assert t == s[i..];
    assert r == s[i..i + |r|];
    assert s[i + |r|..] == t[|r|..];
  }

  /** Stripping adds no character. */
  lemma StripKeepsAbsent(s: string, c: char)
    requires c !in s
    ensures c !in Strip(s)
  {
    var i := LeadingSpace(s);
    var r := TrimEnd(s[i..]);
    assert r == s[i..i + |r|];
    forall k | 0 <= k < |r|
      ensures r[k] != c
    {
      assert r[k] == s[i + k];
    }
  }

  /** A string that neither starts nor ends with whitespace is its own strip. */
  lemma StripUnchanged(s: string)
    requires s == [] || (!IsSpace(s[0]) && !IsSpace(s[|s| - 1]))
    ensures Strip(s) == s
  {
    assert LeadingSpace(s) == 0;
    assert TrimStart(s) == s;
    assert TrailingSpace(s) == 0;
  }

  // ---------------------------------------------------------------------------
  // split() on runs of whitespace

  /** The longest whitespace-free prefix of `s`. */
  function TakeWord(s: string): (w: string)
    ensures |w| <= |s| && w == s[..|w|] && NoSpace(w)
    ensures |w| == |s| || IsSpace(s[|w|])
  {
    if s != [] && !IsSpace(s[0]) then [s[0]] + TakeWord(s[1..]) else []
  }

  /** `s.split()`: the maximal runs of non-whitespace characters. */
  function Split(s: string): (r: seq<string>)
    ensures forall i :: 0 <= i < |r| ==> r[i] != [] && NoSpace(r[i])
    decreases |s|
  {
    if s == [] then []
    else if IsSpace(s[0]) then Split(s[1..])
    else
      var w := TakeWord(s);
      [w] + Split(s[|w|..])
  }

  function Concat(ss: seq<string>): string {
    if ss == [] then [] else ss[0] + Concat(ss[1..])
  }

  lemma {:induction false} ConcatAppend(a: seq<string>, b: seq<string>)
    ensures Concat(a + b) == Concat(a) + Concat(b)
    decreases |a|
  {
    if a != [] {
      assert (a + b)[0] == a[0];
      assert (a + b)[1..] == a[1..] + b;
      ConcatAppend(a[1..], b);
    } else {
      assert a + b == b;
    }
  }

  /** `sep.join(ss)`: the pieces with one separator between each two, so its
      length is theirs plus one separator fewer than there are pieces. Splitting
      at the separator gives the pieces back (`SplitOnJoin`). */
  function Join(ss: seq<string>, sep: string): (r: string)
    ensures ss == [] ==> r == []
    ensures ss != [] ==> |r| == |Concat(ss)| + (|ss| - 1) * |sep|
    ensures ss != [] ==> r[..|ss[0]|] == ss[0]
  {
    if ss == [] then []
    else if |ss| == 1 then
      assert Concat(ss) == ss[0] + Concat([]);
      ss[0]
    else
      var rest := Join(ss[1..], sep);
      assert |ss[0] + sep + rest| == |ss[0]| + |Concat(ss[1..])| + (|ss| - 1) * |sep| by {
        assert (|ss| - 1) * |sep| == |sep| + (|ss| - 2) * |sep|;
      }
      ss[0] + sep + rest
  }

  lemma {:induction false} NonSpaceTakeWord(t: string)
    ensures NonSpace(t) == TakeWord(t) + NonSpace(t[|TakeWord(t)|..])
  {
    var w := TakeWord(t);
    assert t == w + t[|w|..];
    NonSpaceAppend(w, t[|w|..]);
    NonSpaceOfNoSpace(w);
  }

  /** `split()` loses only whitespace: the words, concatenated, are exactly the
      non-whitespace characters of `s`. */
  lemma {:induction false} SplitKeepsText(s: string)
    ensures Concat(Split(s)) == NonSpace(s)
    decreases |s|
  {
    if s != [] {
      if IsSpace(s[0]) {
        SplitKeepsText(s[1..]);
      } else {
        var w := TakeWord(s);
        var rest := s[|w|..];
        assert Concat(Split(s)) == w + Concat(Split(rest)) by {
          assert Split(s) == [w] + Split(rest);
        }
        NonSpaceTakeWord(s);
        SplitKeepsText(rest);
      }
    }
  }

  lemma {:induction false} TakeWordOf(w: string, rest: string)
    requires NoSpace(w)
    requires rest == [] || IsSpace(rest[0])
    ensures TakeWord(w + rest) == w
    decreases |w|
  {
    if w != [] {
      assert (w + rest)[1..] == w[1..] + rest;
      TakeWordOf(w[1..], rest);
    } else {
      assert w + rest == rest;
    }
  }

  /** A whitespace-free word followed by whitespace (or nothing) splits off as the
      first word. */
  lemma {:induction false} SplitCons(w: string, rest: string)
    requires w != [] && NoSpace(w)
    requires rest == [] || IsSpace(rest[0])
    ensures Split(w + rest) == [w] + Split(rest)
  {
    var s := w + rest;
    assert s[0] == w[0];
    TakeWordOf(w, rest);
    assert s[|w|..] == rest;
  }

  lemma {:induction false} SplitSpaceCons(w: string, tail: string)
    requires w != [] && NoSpace(w)
    ensures Split(w + " " + tail) == [w] + Split(tail)
  {
    assert w + " " + tail == w + (" " + tail);
    SplitCons(w, " " + tail);
    assert (" " + tail)[1..] == tail;
  }

  /** Joining whitespace-free words with single spaces and splitting again gives
      the words back. */
  lemma {:induction false} SplitJoin(words: seq<string>)
    requires forall i :: 0 <= i < |words| ==> words[i] != [] && NoSpace(words[i])
    ensures Split(Join(words, " ")) == words
    decreases |words|
  {
    if |words| == 1 {
      SplitCons(words[0], []);
      assert words[0] + [] == words[0];
    } else if |words| > 1 {
      var rest := words[1..];
      SplitSpaceCons(words[0], Join(rest, " "));
      SplitJoin(rest);
      assert words == [words[0]] + rest;
    }
  }

  lemma {:induction false} SplitAfterSpace(p: string, x: string)
    requires AllSpace(p)
    ensures Split(p + x) == Split(x)
    decreases |p|
  {
    if p != [] {
      assert (p + x)[1..] == p[1..] + x;
      SplitAfterSpace(p[1..], x);
    } else {
      assert p + x == x;
    }
  }

  lemma {:induction false} TakeWordBeforeSpace(x: string, q: string)
    requires AllSpace(q)
    ensures TakeWord(x + q) == TakeWord(x)
    decreases |x|
  {
    if x == [] {
      assert x + q == q;
    } else {
      assert (x + q)[1..] == x[1..] + q;
      TakeWordBeforeSpace(x[1..], q);
    }
  }

  lemma {:induction false} SplitBeforeSpace(x: string, q: string)
    requires AllSpace(q)
    ensures Split(x + q) == Split(x)
    decreases |x|
  {
    if x == [] {
      assert x + q == q + [];
      SplitAfterSpace(q, []);
    } else {
      assert (x + q)[0] == x[0];
      if IsSpace(x[0]) {
        assert (x + q)[1..] == x[1..] + q;
        SplitBeforeSpace(x[1..], q);
      } else {
        var w := TakeWord(x);
        TakeWordBeforeSpace(x, q);
        assert (x + q)[|w|..] == x[|w|..] + q;
        SplitBeforeSpace(x[|w|..], q);
      }
    }
  }

  lemma {:induction false} SplitTrimStart(s: string)
    ensures Split(TrimStart(s)) == Split(s)
  {
    var t := TrimStart(s);
    var lead := s[..|s| - |t|];
    assert s == lead + t;
    SplitAfterSpace(lead, t);
  }

  lemma {:induction false} SplitTrimEnd(t: string)
    ensures Split(TrimEnd(t)) == Split(t)
  {
    var r := TrimEnd(t);
    assert t == r + t[|r|..];
    SplitBeforeSpace(r, t[|r|..]);
  }

  /** Surrounding whitespace does not change `split()`, so the `strip()` before it is
      redundant. */
  lemma {:induction false} SplitIgnoresStrip(s: string)
    ensures Split(Strip(s)) == Split(s)
  {
    assert Strip(s) == TrimEnd(TrimStart(s));
    SplitTrimEnd(TrimStart(s));
    SplitTrimStart(s);
  }

  // ---------------------------------------------------------------------------
  // split(sep) for a one-character separator, and its inverse sep.join

  /** `s.split(c)`: never empty; `""` gives `[""]`. */
  function SplitOn(s: string, c: char): (r: seq<string>)
    ensures |r| >= 1
    ensures forall i :: 0 <= i < |r| ==> c !in r[i]
  {
    if s == [] then [[]]
    else
      var rest := SplitOn(s[1..], c);
      if s[0] == c then [[]] + rest else [[s[0]] + rest[0]] + rest[1..]
  }

  /** Joining the pieces of `s.split(c)` with `c` gives `s` back. */
  lemma {:induction false} JoinSplitOn(s: string, c: char)
    ensures Join(SplitOn(s, c), [c]) == s
    decreases |s|
  {
    if s != [] {
      var rest := SplitOn(s[1..], c);
      JoinSplitOn(s[1..], c);
      if s[0] == c {
        assert SplitOn(s, c) == [[]] + rest;
      } else if |rest| > 1 {
        assert Join(rest, [c]) == rest[0] + [c] + Join(rest[1..], [c]);
      }
    }
  }

  lemma {:induction false} SplitOnPrefix(w: string, c: char, x: string)
    requires c !in w
    ensures SplitOn(w + [c] + x, c) == [w] + SplitOn(x, c)
    decreases |w|
  {
    if w == [] {
      assert w + [c] + x == [c] + x;
      assert ([c] + x)[1..] == x;
    } else {
      assert (w + [c] + x)[1..] == w[1..] + [c] + x;
      SplitOnPrefix(w[1..], c, x);
      assert [w[0]] + w[1..] == w;
    }
  }

  lemma {:induction false} SplitOnWhole(w: string, c: char)
    requires c !in w
    ensures SplitOn(w, c) == [w]
    decreases |w|
  {
    if w != [] {
      SplitOnWhole(w[1..], c);
      assert [w[0]] + w[1..] == w;
    }
  }

  /** Splitting a `c`-joined list of `c`-free lines recovers the lines. */
  lemma {:induction false} SplitOnJoin(lines: seq<string>, c: char)
    requires lines != []
    requires forall i :: 0 <= i < |lines| ==> c !in lines[i]
    ensures SplitOn(Join(lines, [c]), c) == lines
    decreases |lines|
  {
    if |lines| == 1 {
      SplitOnWhole(lines[0], c);
    } else {
      SplitOnPrefix(lines[0], c, Join(lines[1..], [c]));
      SplitOnJoin(lines[1..], c);
      assert lines == [lines[0]] + lines[1..];
    }
  }

  // ---------------------------------------------------------------------------
  // substring search

  /** `pat` occurs in `s` starting at index `i`. */
  predicate OccursAt(s: string, pat: string, i: int) {
    0 <= i && i + |pat| <= |s| && s[i..i + |pat|] == pat
  }

  /** `s.find(pat, from)` as an option. */
  function Find(s: string, pat: string, from: nat): (r: Option<nat>)
    requires from <= |s|
    ensures r.Some? ==> from <= r.value && OccursAt(s, pat, r.value)
    ensures r.Some? ==> forall j :: from <= j < r.value ==> !OccursAt(s, pat, j)
    ensures r.None? ==> forall j :: from <= j ==> !OccursAt(s, pat, j)
    decreases |s| - from
  {
    if from + |pat| > |s| then None
    else if s[from..from + |pat|] == pat then Some(from)
    else Find(s, pat, from + 1)
  }

  /** `s.find(pat)`: the first occurrence. */
  function IndexOf(s: string, pat: string): (r: Option<nat>)
    ensures r.Some? ==> OccursAt(s, pat, r.value) && forall j :: 0 <= j < r.value ==> !OccursAt(s, pat, j)
    ensures r.None? ==> forall j :: !OccursAt(s, pat, j)
  {
    Find(s, pat, 0)
  }

  /** `pat in s`: `pat` occurs somewhere in `s`. */
  predicate Contains(s: string, pat: string)
    ensures Contains(s, pat) <==> exists j :: OccursAt(s, pat, j)
  {
    IndexOf(s, pat).Some?
  }

  /** The text before the first occurrence of `pat` does not contain `pat`, and the
      string is that text, `pat` and what follows. */
  lemma BeforeFirst(s: string, pat: string, i: nat)
    requires pat != []
    requires IndexOf(s, pat) == Some(i)
    ensures s == s[..i] + pat + s[i + |pat|..]
    ensures !Contains(s[..i], pat)
  {
    var head := s[..i];
    forall j
      ensures !OccursAt(head, pat, j)
    {
      if 0 <= j && j + |pat| <= |head| {
        assert s[j..j + |pat|] == head[j..j + |pat|];
        assert !OccursAt(s, pat, j);
      }
    }
  }

  /** A string lacking the first character of `pat` does not contain `pat`. */
  lemma AbsentFirstChar(s: string, pat: string)
    requires pat != [] && pat[0] !in s
    ensures !Contains(s, pat)
  {
    forall j
      ensures !OccursAt(s, pat, j)
    {
      if 0 <= j && j + |pat| <= |s| {
        assert s[j..j + |pat|][0] == s[j];
      }
    }
  }

  /** `s.endswith(suffix)`: `s` is some stem followed by `suffix`. */
  predicate EndsWith(s: string, suffix: string)
    ensures EndsWith(s, suffix) ==> |suffix| <= |s| && s == s[..|s| - |suffix|] + suffix
  {
    |suffix| <= |s| && s[|s| - |suffix|..] == suffix
  }

  /** Every stem followed by `suffix` ends with `suffix`. */
  lemma EndsWithAppended(stem: string, suffix: string)
    ensures EndsWith(stem + suffix, suffix)
  {
    assert (stem + suffix)[|stem|..] == suffix;
  }

  /** A pattern whose first character does not reappear in it cannot overlap itself,
      so no occurrence can straddle the end of a string that does not contain it. */
  predicate SelfAvoiding(pat: string) {
    pat != [] && forall k :: 1 <= k < |pat| ==> pat[k] != pat[0]
  }

  lemma {:induction false} NoStraddle(a: string, pat: string, b: string, j: int)
    requires SelfAvoiding(pat)
    requires forall i :: !OccursAt(a, pat, i)
    requires 0 <= j < |a|
    ensures !OccursAt(a + pat + b, pat, j)
  {
    var s := a + pat + b;
    if j + |pat| <= |a| {
      assert s[j..j + |pat|] == a[j..j + |pat|];
      assert !OccursAt(a, pat, j);
    } else {
      var k := |a| - j;
      assert k < |pat| && pat[k] != pat[0];
      assert j + |pat| <= |s| ==> s[j..j + |pat|][k] == pat[0];
    }
  }

  /** When the text before the first `pat` avoids `pat`, that first occurrence is
      the one found. */
  lemma {:induction false} IndexOfAfter(a: string, pat: string, b: string)
    requires SelfAvoiding(pat)
    requires forall i :: !OccursAt(a, pat, i)
    ensures IndexOf(a + pat + b, pat) == Some(|a|)
  {
    var s := a + pat + b;
    assert s[|a|..|a| + |pat|] == pat;
    assert OccursAt(s, pat, |a|);
    forall j | 0 <= j < |a|
      ensures !OccursAt(s, pat, j)
    {
      NoStraddle(a, pat, b, j);
    }
  }

  /** Splitting `a + pat + b` at its first `pat` gives back `a` and `b`. */
  lemma SplitAtFirst(a: string, pat: string, b: string)
    requires SelfAvoiding(pat)
    requires forall i :: !OccursAt(a, pat, i)
    ensures IndexOf(a + pat + b, pat) == Some(|a|)
    ensures (a + pat + b)[..|a|] == a && (a + pat + b)[|a| + |pat|..] == b
  {
    IndexOfAfter(a, pat, b);
  }

  // ---------------------------------------------------------------------------
  // replace(pat, "")

  /** `s.replace(pat, "")` for a non-empty `pat`: scanning left to right, every
      non-overlapping occurrence is deleted. */
  function RemoveAll(s: string, pat: string): (r: string)
    requires pat != []
    ensures |r| <= |s|
    // The string comes back unchanged exactly when `pat` does not occur in it
    // (`s.find(pat) == -1`).
    ensures r == s <==> IndexOf(s, pat).None?
    decreases |s|
  {
    if |pat| <= |s| && s[..|pat|] == pat then
      assert OccursAt(s, pat, 0);
      RemoveAll(s[|pat|..], pat)
    else if s == [] then
      []
    else
      ContainsAfterFirst(s, pat);
      [s[0]] + RemoveAll(s[1..], pat)
  }

  /** When `pat` does not start `s`, it occurs in `s` exactly when it occurs after
      the first character. */
  lemma ContainsAfterFirst(s: string, pat: string)
    requires s != [] && !OccursAt(s, pat, 0)
    ensures Contains(s, pat) <==> Contains(s[1..], pat)
  {
    if Contains(s, pat) {
      var j :| OccursAt(s, pat, j);
      assert j >= 1;
      assert s[1..][j - 1..j - 1 + |pat|] == s[j..j + |pat|];
      assert OccursAt(s[1..], pat, j - 1);
    }
    if Contains(s[1..], pat) {
      var j :| OccursAt(s[1..], pat, j);
      assert s[j + 1..j + 1 + |pat|] == s[1..][j..j + |pat|];
      assert OccursAt(s, pat, j + 1);
    }
  }

  lemma NoOccurrenceAfterFirst(s: string, pat: string)
    requires s != [] && forall i :: !OccursAt(s, pat, i)
    ensures forall i :: !OccursAt(s[1..], pat, i)
  {
    forall i ensures !OccursAt(s[1..], pat, i) {
      assert !OccursAt(s, pat, i + 1);
      if 0 <= i && i + |pat| <= |s| - 1 {
        assert s[i + 1..i + 1 + |pat|] == s[1..][i..i + |pat|];
      }
    }
  }

  /** Removing a self-avoiding suffix from a stem that does not contain it gives the
      stem, as `"1.0.json".replace(".json", "") == "1.0"`. */
  lemma {:induction false} RemoveAllSuffix(stem: string, pat: string)
    requires SelfAvoiding(pat)
    requires forall i :: !OccursAt(stem, pat, i)
    ensures RemoveAll(stem + pat, pat) == stem
    decreases |stem|
  {
    var s := stem + pat;
    if stem == [] {
      assert s == pat;
      assert s[|pat|..] == [];
    } else {
      assert !OccursAt(s, pat, 0) by {
        assert s == stem + pat + [];
        NoStraddle(stem, pat, [], 0);
      }
      assert RemoveAll(stem[1..] + pat, pat) == stem[1..] by {
        NoOccurrenceAfterFirst(stem, pat);
        RemoveAllSuffix(stem[1..], pat);
      }
      assert s[1..] == stem[1..] + pat;
      assert RemoveAll(s, pat) == [s[0]] + RemoveAll(s[1..], pat);
      assert stem == [stem[0]] + stem[1..];
    }
  }

  /** Removing a one-character pattern leaves no such character. */
  lemma {:induction false} RemoveAllChar(s: string, c: char)
    ensures c !in RemoveAll(s, [c])
    decreases |s|
  {
    if s != [] {
      RemoveAllChar(s[1..], c);
    }
  }

  /** Removing characters from a whitespace-free string keeps it whitespace-free. */
  lemma {:induction false} RemoveAllNoSpace(s: string, pat: string)
    requires pat != []
    requires NoSpace(s)
    ensures NoSpace(RemoveAll(s, pat))
    decreases |s|
  {
    if |pat| <= |s| && s[..|pat|] == pat {
      RemoveAllNoSpace(s[|pat|..], pat);
    } else if s != [] {
      RemoveAllNoSpace(s[1..], pat);
    }
  }

  // ---------------------------------------------------------------------------
  // integers as decimal text

  function DigitChar(d: nat): (c: char)
    requires d < 10
    ensures '0' <= c <= '9'
  {
    (48 + d) as char
  }

  predicate IsDigits(s: string) {
    forall i :: 0 <= i < |s| ==> '0' <= s[i] <= '9'
  }

  /** `str(n)` for a natural number: decimal digits without leading zeros. */
  function NatToString(n: nat): (r: string)
    ensures r != [] && IsDigits(r)
    ensures r[0] == '0' ==> n == 0 && r == "0"
  {
    if n < 10 then [DigitChar(n)] else NatToString(n / 10) + [DigitChar(n % 10)]
  }

  /** `str(i)` / `f"{i}"` for an integer: a minus sign exactly for a negative
      number, then digits that read back as its magnitude. */
  function IntToString(i: int): (r: string)
    ensures r != []
    ensures i < 0 <==> r[0] == '-'
    ensures i >= 0 ==> IsDigits(r) && ParseNat(r) == i
    ensures i < 0 ==> IsDigits(r[1..]) && ParseNat(r[1..]) == -i
  {
    if i < 0 then
      ParseNatToString(-i);
      var digits := NatToString(-i);
      assert ("-" + digits)[1..] == digits;
      "-" + digits
    else
      ParseNatToString(i);
      NatToString(i)
  }

  /** The value of a string of decimal digits. */
  function ParseNat(s: string): nat
    requires IsDigits(s)
  {
    if s == [] then 0 else ParseNat(s[..|s| - 1]) * 10 + (s[|s| - 1] as int - 48)
  }

  /** Reading the decimal text back gives the number. */
  lemma {:induction false} ParseNatToString(n: nat)
    ensures ParseNat(NatToString(n)) == n
  {
    if n >= 10 {
      var s := NatToString(n);
      assert s[..|s| - 1] == NatToString(n / 10);
      ParseNatToString(n / 10);
    }
  }
}
